=== FILE: README.md ===
# penmon: FAO-56 Penman-Monteith reference evapotranspiration, in Dafny

This project models the core of `eto.py` from the penmon package: a weather
`Station` that records daily and hourly entries, the regional `Climate`
profile that fills gaps in those records, the fallback chains each entry uses
to derive the quantities of FAO Irrigation and Drainage Paper 56 (mean
temperature, dew point, wind at 2 m, vapour pressures, relative humidity,
radiation terms, soil heat flux), and the reference evapotranspiration itself
(Penman-Monteith, Eq. 6, with Hargreaves' Eq. 52 as the fallback).

Modules, one per file:

- `Optional` (`optional.dfy`): `Option` for Python's `None`, `Result` for a
  raised exception, and `Truthy`, Python's `if x:` on an optional number.
- `Fallback` (`fallback.dfy`): `FirstMatch`, a reference definition of "the
  first alternative whose inputs are present wins", proved once.
- `Climates` (`climate.dfy`): the profile and its fluent setters.
- `Physics` (`physics.dfy`): the transcendental formulas of the paper, taken
  as given (`Formulas`, `Astro`), the Stefan-Boltzmann constant and
  round-half-even.
- `Stations` (`station.dfy`): station, crop, entry, and the station's
  constructor.
- `Entries` (`entry.dfy`): the fallback chains every entry shares.
- `Radiation` (`radiation.dfy`): R_a, R_so, solar, longwave and net radiation,
  soil heat flux.
- `Evapotranspiration` (`eto.dfy`): `eto` and `eto_hargreaves`.
- `Factories` (`factory.dfy`): `day_entry` and `hour_entry`.

Conventions. Every optional observation is an `Option<real>`; a test written
`if x:` in the source is `Truthy(x)`, so a logged zero reads as missing,
while a test written `is None` / `!= None` is `x.Some?`. Any exception the
source raises, including the `TypeError` of arithmetic on `None`, a division
by zero and a `math` domain error, is the single outcome `Err`. The
module-level switches `CHECK_RADIATION_RANGE` and
`CHECK_SUNSHINE_HOURS_RANGE` are the `Checks` parameter. The station is a
value: each factory returns the station after the call together with the
entry or the error. An entry holds the very profile object its station held
when the entry was made (`self.climate = station.climate`), and the fluent
setters change that object in place, so a later `station.climate.humid()`
reaches every entry already recorded. The model's `Entry.climate` is that
shared profile as it is now, and `Env.station.climate` is the station's
current profile (`self.station.climate`). The two differ only once the
station is given a different profile object, and the source reads each in
different places, as the model does.

Where the code and its documentation disagree the model follows the code:

- The Hargreaves radiation coefficient is 0.19 only for a coastal profile; an
  island profile above 100 m gets 0.16, and the profile's own `k_rs` field is
  never read.
- R_so is 0.75 R_a below 100 m and (0.75 + 2e-5 z) R_a from 100 m up.
- Logged sunshine hours (any value but `None`, zero included) take precedence
  over the island formula and the temperature-range formula for daily solar
  radiation.
- The anemometer height is not validated by the constructor, and the
  timezone longitude argument is range-checked and then replaced by 345.
- `hour_entry` keeps a radiation reading only when it lies more than 5 %
  above R_so (see Findings); the model's `RecordHour` uses the band that
  `HourEntry.solar_radiation` applies.

## Model

| member | source | states |
|---|---|---|
| Climates.Default | eto.py:918-929 | the default profile is interior and arid with an average wind of 2 m/s, and its flags and coefficients are consistent |
| Climates.Apply | eto.py:931-996 | each setter leaves the other two groups untouched, makes its own group's flags mutually exclusive with the matching k_rs or dew-point offset; the wind setters write 0.5, 2 and 4 m/s |
| Climates.ApplyKeepsConsistent | eto.py:952-996 | every setter maps a consistent profile to a consistent profile |
| Climates.ApplyIdempotent | eto.py:931-996 | calling a setter twice equals calling it once |
| Climates.LaterSettingWins | eto.py:931-996 | within one group the later setter overrides the earlier one completely |
| Climates.DifferentGroupsCommute | eto.py:931-996 | setters of different groups can be chained in either order |
| Climates.ChainKeepsConsistent | eto.py:918-996 | any chain of setters from a consistent profile, `Climate()` included, ends consistent |
| Climates.ChainLastSettingWins | eto.py:931-996 | after a chain each group holds what the last setter of that group wrote, or its earlier contents if none |
| Climates.ChainKeepsWindPositive | eto.py:928-950 | the average wind speed of any chain of setters from `Climate()` stays positive |
| Physics.RoundHalfEven | eto.py:653 | the integer is within one half of the argument, ties go to the even neighbour, integers are kept |
| Stations.EmptyEntry | eto.py:308-335 | a new entry carries its day number and the station's profile, and none of its fifteen observations is set |
| Stations.NewStation | eto.py:65-99 | construction succeeds exactly for a float latitude in [-90, 90], a float longitude in [0, 360], an integer altitude of at least 0 and a timezone longitude in [0, 359]; the station stores its arguments, timezone 345, empty records, the default profile and crop |
| Stations.TimezoneArgumentIgnored | eto.py:83-93 | any two accepted timezone arguments build the same station |
| Stations.IntegerLongitudeRefused | eto.py:68-69 | a longitude passed as an integer is always refused |
| Entries.AtmosphericPressure | eto.py:380-388 | a truthy logged pressure is returned, otherwise the altitude estimate |
| Entries.PsychrometricConstant | eto.py:402-407 | γ is 0.000665 times the logged pressure when one is truthy, else times the altitude estimate, and is positive exactly when that pressure is |
| Entries.Tmean | eto.py:409-421 | a mean exists exactly when a truthy mean or two truthy extremes are logged; a truthy logged mean is returned as is, otherwise twice the result is the sum of the extremes |
| Entries.TmeanBetweenExtremes | eto.py:415-421 | a mean derived from the two extremes lies between them |
| Entries.TmeanIsFirstMatch | eto.py:409-421 | `Tmean` is the first of: logged mean, average of the extremes |
| Entries.DewPoint | eto.py:368-378 | a dew point exists exactly when one is logged truthy, or a truthy minimum and a profile are; a logged one is returned as is, an estimate lies the profile's offset below the minimum |
| Entries.DewPointFromClimate | eto.py:368-378 | under a consistent profile an estimated dew point is the minimum itself (humid) or two degrees below (arid) |
| Entries.DewPointIsFirstMatch | eto.py:368-378 | the dew point is the first of: logged dew point, minimum less the captured profile's offset |
| Entries.WindSpeed2m | eto.py:337-366 | a truthy logged speed always wins, unchanged at 2 m and scaled by the Eq. 47 factor elsewhere; otherwise the station's current profile supplies its average, and without one there is nothing |
| Entries.WindMissingOnlyWithoutClimate | eto.py:337-366 | no wind figure comes out exactly when no truthy wind is logged and the station has no profile |
| Entries.WindSpeed2mIsFirstMatch | eto.py:351-366 | the wind at 2 m is the first of: logged speed at 2 m, logged speed converted from the anemometer height, the profile's average |
| Entries.MeanSaturationVapourPressure | eto.py:429-439 | e_s exists exactly when both extremes or the mean are truthy; from the extremes it lies between e°(Tmin) and e°(Tmax); otherwise it is e° at the logged mean |
| Entries.MeanSaturationIsFirstMatch | eto.py:429-439 | e_s is the first of: average over the two extremes, at the logged mean |
| Entries.ActualVapourPressure | eto.py:449-491 | e_a exists exactly when one of the seven estimates has its inputs (the humidity-extremes case needs the maximum with the minimum temperature, which the RHmax case already covers); a truthy logged value is returned as is |
| Entries.ActualVapourPressureIsFirstMatch | eto.py:449-491 | e_a is the first of the seven estimates in the source's order |
| Entries.VapourPressureFromMinimumTemperature | eto.py:462-491 | without a logged vapour pressure, psychrometer, humidity or dew-point reading, e_a is the saturation pressure at the estimated dew point (the minimum less the profile's offset) when that estimate is not zero; an estimate of exactly zero (a 2 degree minimum under an arid profile) counts as missing, so e_a is missing and the deficit fails |
| Entries.VapourPressureDeficit | eto.py:493-496 | the deficit exists exactly when both pressures do, and is their difference |
| Entries.RelativeHumidity | eto.py:635-645 | fails exactly when e_a is missing or e°(T) is zero; otherwise the result times e°(T) is 100 e_a |
| Entries.RelativeHumidityMean | eto.py:647-653 | a logged mean humidity is returned whenever set; else, with both extremes, and whenever both RH calls succeed, the round-half-even of the average humidity at the extremes, an integer within one half of it; else nothing |
| Entries.ZeroReadsAsMissing | eto.py:337-491 | logging zero for any field read through `if x:` gives the same mean temperature, dew point, wind, e_s and e_a as leaving it unset |
| Entries.RelativeHumidityMeanKeepsZero | eto.py:649-650 | unlike the other chains `RH_mean` returns a logged zero humidity |
| Radiation.HourlyRa | eto.py:806-817 | R_a of an hour is zero when the middle of the hour lies outside [-ω_s, ω_s] and the in-window value otherwise |
| Radiation.ExtraterrestrialRadiation | eto.py:806-817 | a day receives the daily R_a; an hour receives the in-window value when the middle of the hour lies in [-ω_s, ω_s], and zero otherwise |
| Radiation.ClearSkyCoefficient | eto.py:572-581 | R_so / R_a is 0.75 below 100 m and 0.75 + 2e-5 z from 100 m up, at least 0.752 there |
| Radiation.ClearSkyRadiation | eto.py:572-581 | R_so is 0.75 R_a below 100 m and (0.75 + 2e-5 z) R_a from 100 m up, and is zero exactly when R_a is |
| Radiation.ClearSkyRisesWithAltitude | eto.py:572-581 | the R_so factor is 0.75 below 100 m, never below 0.75, and never falls as the altitude rises |
| Radiation.Angstrom | eto.py:766-781 | the Angstrom estimate fails exactly for negative sunshine, sunshine above N with the check on, or N = 0; otherwise it is (0.25 + 0.5 n/N) R_a |
| Radiation.DailySolarRadiation | eto.py:712-781 | a truthy logged value is returned unchanged unless it exceeds R_so with the check on; else logged sunshine, then the low-island formula, then the temperature range with k_Rs 0.19 only for coastal, then full sunshine |
| Radiation.FullSunshineIsClearSky | eto.py:572-581 | below 100 m the Angstrom estimate with n = N equals R_so |
| Radiation.AngstromWithinClearSky | eto.py:766-781 | for 0 <= n <= N the Angstrom estimate lies between R_a/4 and R_so |
| Radiation.HourlyBandAsBound | eto.py:868-877 | the hourly tolerance band is: at most 0.05 when R_so is zero, at most 1.05 R_so when R_so is positive |
| Radiation.HourlySolarRadiation | eto.py:857-880 | succeeds exactly for a logged value (zero included) inside the tolerance band or with the check off, and returns it unchanged |
| Radiation.NightHourAcceptsOnlyNearZero | eto.py:865-877 | outside the daylight window (eto.py:806-817) R_so is zero and only readings up to 0.05 are accepted |
| Radiation.CloudFraction | eto.py:828-837 | 0.5 when R_so is zero, otherwise it needs a reading; always in [0, 1]; exactly 1 - Rs/R_so for readings in [0, R_so]; zero for readings at or above R_so |
| Radiation.LongwaveOutgoing | eto.py:819-822 | the soil's emission is never negative |
| Radiation.LongwaveIncoming | eto.py:824-842 | fails exactly when the cloud fraction or the mean temperature is missing |
| Radiation.HourlyNetLongwave | eto.py:844-854 | fails exactly when the soil temperature is missing or incoming longwave fails |
| Radiation.DailyNetLongwave | eto.py:593-611 | fails exactly when an extreme is not truthy, e_a is missing or negative, solar radiation fails, or R_so is zero |
| Radiation.NetShortwave | eto.py:583-591 | exists exactly when solar radiation does |
| Radiation.NetRadiation | eto.py:613-625 | exists exactly when both solar radiation and net longwave do |
| Radiation.SoilHeatFluxFollowsNetRadiation | eto.py:786-795 | an hour's soil heat flux has the sign of net radiation and at most half its magnitude |
| Radiation.SoilHeatFlux | eto.py:786-795 | zero per day (eto.py:656-661); per hour it needs a reading and net radiation, and is half of R_n below 0.05 and a tenth otherwise |
| Radiation.AirConductance | eto.py:882-884 | the air conductance coefficient is 37 per hour and 900 per day (eto.py:663-665) |
| Evapotranspiration.Hargreaves | eto.py:667-674 | succeeds exactly when both extremes are set (zero allowed) and the range is not negative, with Eq. 52's value |
| Evapotranspiration.HargreavesUsesExtremesOnly | eto.py:667-674 | the logged mean temperature, humidity and wind do not change Hargreaves' estimate |
| Evapotranspiration.PenmanMonteithTerms | eto.py:687-707 | the terms exist exactly when T_mean (with T_mean + 273 non-zero), R_n, G, u_2 and the deficit do, and are those of Eq. 6 |
| Evapotranspiration.PenmanMonteith | eto.py:687-708 | fails without T_mean, R_n or the deficit; a negative numerator gives exactly 0; otherwise it needs a non-zero denominator, and the result times the denominator is the numerator; a negative result needs a negative denominator |
| Evapotranspiration.FallbackCondition | eto.py:684-685 | the wind at 2 m is falsy exactly when a logged wind converts to zero at 2 m, or no wind is logged and the profile is missing or has zero average wind |
| Evapotranspiration.Eto | eto.py:676-708 | `eto` is Hargreaves in those fallback cases and otherwise succeeds exactly when Penman-Monteith does; it fails without an extreme when falling back and without T_mean otherwise |
| Evapotranspiration.EtoOtherwisePenmanMonteith | eto.py:684-708 | outside the fallback cases `eto` is the Penman-Monteith estimate |
| Evapotranspiration.PenmanMonteithBranch | eto.py:684-705 | with a truthy wind figure `eto` fails when T_mean is missing and returns exactly 0 when the numerator is negative |
| Evapotranspiration.ProfileKeepsPenmanMonteith | eto.py:684-685 | a station whose profile comes from `Climate()` by setters is never in a fallback case unless a logged wind, measured away from 2 m, converts to zero |
| Factories.StoredDay | eto.py:159-166 | the stored day carries the five plain readings and the station's current profile, with no radiation, sunshine or other observation yet |
| Factories.RecordDay | eto.py:156-186 | days outside 1..366 change nothing and fail; otherwise the day is stored whatever follows, with the plain readings, the current profile, the radiation if its test passed, the sunshine if both tests passed, and nothing else, and nothing else in the station changes; success exactly when both range tests pass; the returned entry is the stored one, without zero readings |
| Factories.RejectedSunshineKeepsRadiation | eto.py:168-184 | a sunshine reading above N fails after an accepted radiation reading, and the stored day keeps that radiation without sunshine |
| Factories.RejectedRadiationStillStored | eto.py:159-175 | a radiation reading above R_so fails, yet the day stays recorded without radiation or sunshine |
| Factories.DayRadiationRoundTrip | eto.py:168-175 | a radiation reading accepted by `day_entry` is what the stored day's `solar_radiation` returns |
| Factories.DaySunshineRoundTrip | eto.py:177-184 | accepted positive sunshine hours, with no radiation logged, give the stored day the Angstrom estimate for exactly those hours |
| Factories.NegativeSunshineStoredThenRefused | eto.py:177-184 | negative sunshine hours pass `day_entry` and then make `solar_radiation` of the stored day fail |
| Factories.StoredHour | eto.py:230-237 | the stored hour carries the five plain readings and the current profile, with no radiation or other observation yet |
| Factories.RecordHourWith | eto.py:230-248 | the hour is stored under its key whatever follows, with the current profile and no unlogged observation, and nothing else changes; failure exactly when a truthy reading fails the test with the check on; on success the stored and returned hour is the fresh hour with the caller's readings and the radiation if truthy, on failure the same without radiation |
| Factories.RecordHourAsWritten | eto.py:239-246 | with the check on, a truthy reading is kept exactly when it exceeds R_so by more than 5 % |
| Factories.AsWrittenHourCheckInverted | eto.py:241 | by day every reading the as-written test keeps is refused by the stored hour's `solar_radiation`, and every reading in (0, R_so] is refused at entry |
| Factories.AsWrittenHourExample | eto.py:241 | at sea level with R_a = 2, a reading of 1.0 is refused and a reading of 2.0 is kept and then refused by `solar_radiation` |
| Factories.RecordHour | eto.py:230-248 | the corrected factory stores the hour under its key with the current profile and no unlogged observation, changes nothing else, and returns the stored entry, which is the fresh hour with the caller's readings and the radiation if truthy; on failure the stored hour has no radiation |
| Factories.HourRadiationRoundTrip | eto.py:239-246 | the corrected factory accepts a truthy reading exactly when the stored hour's `solar_radiation` does, which then returns it unchanged |

## Left out

- Date handling: parsing day and hour strings, the day number of a datetime and the hour key `int(timestamp / 3600)` are left to the caller; `RecordDay` takes the day number and `RecordHour` the key and day number.
- The transcendental formulas (Eq. 7, 11, 13, 21-34, 47, the square root and the hourly emissivity) are parameters (`Formulas`, `Astro`), not computed: floating-point exp, log and trigonometry are outside the model. Their own failure modes (division at T = -237.3, the logarithm's domain at small anemometer heights, `acos` outside [-1, 1]) are not modelled.
- Python's `round(x, k)` on intermediate and final results is not modelled (exact reals are used), except the integer rounding of `RH_mean`. Several consequences reach branch decisions or acceptance tests; those known are listed below under the members they affect.
- Evapotranspiration.FallbackCondition: the wind at 2 m is taken unrounded, whereas eto.py:357-358 rounds the converted speed to one decimal; a logged 0.06 m/s at 10 m becomes 0.0 there and `eto` falls back to Hargreaves, a case the model's `FallsBack` does not include.
- Evapotranspiration.ProfileKeepsPenmanMonteith: for the same reason its conclusion holds of the unrounded wind only; a small logged wind converted and rounded to 0.0 falls back in the source.
- Radiation.ClearSkyRadiation: R_so is unrounded, whereas eto.py:579-581 rounds it to one decimal; an hourly R_a of 0.05 gives R_so = 0.0375 in the model but 0.0 in the source.
- Radiation.HourlySolarRadiation: because of that rounding the source treats a tiny R_so as zero and accepts readings up to 0.05 (eto.py:871), where the model applies the 1.05 R_so bound and refuses, for example, 0.045. With a positive R_so the bound at eto.py:874 is likewise 1.05 times the rounded R_so in the source and the unrounded one in the model.
- Factories.RecordDay: the radiation test compares with the unrounded R_so, whereas eto.py:170 compares with R_so rounded to one decimal; at altitude 0 with a daily R_a of 20.5 the source's ceiling is 15.4 and a reading of 15.39 is stored, while the model's ceiling is 15.375 and the reading is refused.
- Radiation.DailySolarRadiation: the same unrounded ceiling at eto.py:735 refuses a logged 15.39 in that example, which the source returns.
- Factories.RecordHourAsWritten: the as-written test at eto.py:241 uses the rounded R_so in the source and the unrounded one in the model, so readings near the ceiling can be decided differently.
- Factories.RecordHour: the corrected test uses the unrounded R_so, as `HourlySolarRadiation` does; against the source's rounded R_so at eto.py:874 readings near 1.05 R_so can be decided differently.
- Radiation.DailyNetLongwave: e_a is unrounded, whereas eto.py:468-491 rounds each estimate to three decimals; a psychrometric e_a of -0.0004 becomes -0.0 there and `math.sqrt` at eto.py:610 accepts it, while the model's square-root domain test refuses the negative value.
- Radiation.CloudFraction: likewise the source returns 0.5 for an R_so that rounds to zero (eto.py:829), where the model divides by the unrounded R_so.
- Floating point versus integer results (`return 0` versus `0.0`, `average_wind_speed = 2` versus `2.0`) are not distinguished.
- Exception classes and messages are not distinguished: every raise is `Err`.
- `warnings.warn` calls are not modelled.
- `Station.describe`, `Climate.describe`, `StationDay`, `MonthEntry`, `WeekEntry`, `TimeEntry.X`, the commented-out `set_location` and the `*_in_mm` conversions are not modelled; they are reporting helpers or unused.
- `latitude_rad`, `longitude_rad`, `relative_sun_distance`, `solar_declination`, `sunset_hour_angle`, `daylight_hours` and `solar_time_angle` enter only through `Astro`.
- `latent_heat_of_vaporization` and `specific_heat` are constants that nothing in the core reads.
- `TimeEntry.RH` checks that its argument is a number; the model's argument is always a real.
- The `is_number(n)` test on sunshine hours in `DayEntry.solar_radiation` is always passed by a real.
- Entries are values. In the source the entry a factory returns is the very object stored in `station.days` or `station.hours` (eto.py:159-161, 186), so a field a caller sets on it afterwards changes the stored entry too; the model represents such a write by building a different `Entry` and storing it back into the station's map as well.
- Mutation of a station's `climate` or `ref_crop` after construction is modelled by building a different `Station` value.
- Profile sharing between a station and its entries is not modelled: an in-place setter call on the station's profile is modelled by rebuilding the `climate` of every existing entry as well as the station's, which the model leaves to the caller.
- tests/rh_mean.py is not part of this model.

## Findings

| source | as written | input that shows it | evidently intended | confidence | as-written member | corrected member |
|---|---|---|---|---|---|---|
| eto.py:241 | `hour_entry` keeps a radiation reading only when `radiation_s - R_so > 0.05 * R_so`, i.e. more than 5 % above the clear-sky ceiling, and raises otherwise | station at sea level, hour with R_a = 2 so R_so = 1.5, checks on: radiation 1.0 raises "Radiation out of range"; radiation 2.0 is kept, and `solar_radiation()` of that hour then raises | keep a reading exactly when it lies within the band `HourEntry.solar_radiation` enforces (at most 1.05 R_so by day, at most 0.05 at night) | high (not executed) | Factories.RecordHourAsWritten, Factories.AsWrittenHourCheckInverted, Factories.AsWrittenHourExample | Factories.RecordHour, Factories.HourRadiationRoundTrip |

=== FILE: climate.dfy ===
/** The regional climate profile that fills gaps in a station's records
    (eto.py, class `Climate`). The source keeps three location flags and two
    humidity flags as independent booleans; its fluent setters keep them
    mutually exclusive, and this module proves that they do. */
module Climates {
  import opened Optional

  datatype Climate = Climate(
    interior: bool,
    coastal: bool,
    island: bool,
    arid: bool,
    humid: bool,
    dewPointDifference: real,  // degrees C the dew point runs below the daily minimum
    averageWindSpeed: real,    // m/s, used when no wind speed is logged
    kRs: real)                 // Hargreaves radiation adjustment coefficient

  /** `Climate()`: an interior, arid site with 2 m/s average wind. */
  function Default(): (c: Climate)
    ensures Consistent(c)
    ensures c.interior && c.arid
    ensures c.averageWindSpeed == 2.0
  {
    Climate(true, false, false, true, false, 2.0, 2.0, 0.16)
  }

  function Count(b: bool): nat
  {
    if b then 1 else 0
  }

  /** Exactly one of interior, coastal and island is set, and `kRs` is the
      coefficient that goes with it. */
  predicate LocationConsistent(c: Climate)
  {
    && Count(c.interior) + Count(c.coastal) + Count(c.island) == 1
    && c.kRs == (if c.interior then 0.16 else 0.19)
  }

  /** Exactly one of arid and humid is set, and the dew-point difference is
      the one that goes with it. */
  predicate HumidityConsistent(c: Climate)
  {
    && Count(c.arid) + Count(c.humid) == 1
    && c.dewPointDifference == (if c.arid then 2.0 else 0.0)
  }

  predicate Consistent(c: Climate)
  {
    LocationConsistent(c) && HumidityConsistent(c)
  }

  /** The fluent setters of `Climate`, one constructor per method. */
  datatype Setting =
    | Interior | Coastal | Island
    | Arid | Humid
    | LightWinds | ModerateWinds | StrongWinds

  /** The mutually exclusive group a setting belongs to. */
  datatype Group = LocationGroup | HumidityGroup | WindGroup

  function GroupOf(s: Setting): Group
  {
    match s
    case Interior | Coastal | Island => LocationGroup
    case Arid | Humid => HumidityGroup
    case LightWinds | ModerateWinds | StrongWinds => WindGroup
  }

  /** The fields a group of setters writes agree in `c` and `d`. */
  predicate SameGroupFields(c: Climate, d: Climate, g: Group)
  {
    match g
    case LocationGroup => c.interior == d.interior && c.coastal == d.coastal && c.island == d.island && c.kRs == d.kRs
    case HumidityGroup => c.arid == d.arid && c.humid == d.humid && c.dewPointDifference == d.dewPointDifference
    case WindGroup => c.averageWindSpeed == d.averageWindSpeed
  }

  /** One setter call; the source returns `self` so calls chain, and the
      model returns the updated profile. */
  function Apply(c: Climate, s: Setting): (r: Climate)
    // The setter leaves the fields of the other two groups alone.
    ensures forall g :: g != GroupOf(s) ==> SameGroupFields(r, c, g)
    // A location or humidity setter makes its group consistent whatever it was.
    ensures GroupOf(s) == LocationGroup ==> LocationConsistent(r)
    ensures GroupOf(s) == HumidityGroup ==> HumidityConsistent(r)
    ensures s == Coastal ==> r.coastal && r.kRs == 0.19
    ensures s == Island ==> r.island && r.kRs == 0.19
    ensures s == Interior ==> r.interior && r.kRs == 0.16
    ensures s == Arid ==> r.arid && r.dewPointDifference == 2.0
    ensures s == Humid ==> r.humid && r.dewPointDifference == 0.0
    ensures s == LightWinds ==> r.averageWindSpeed == 0.5
    ensures s == ModerateWinds ==> r.averageWindSpeed == 2.0
    ensures s == StrongWinds ==> r.averageWindSpeed == 4.0
    ensures GroupOf(s) == WindGroup ==> r.averageWindSpeed > 0.0
  {
    match s
    case LightWinds => c.(averageWindSpeed := 0.5)
    case ModerateWinds => c.(averageWindSpeed := 2.0)
    case StrongWinds => c.(averageWindSpeed := 4.0)
    case Arid => c.(arid := true, humid := false, dewPointDifference := 2.0)
    case Humid => c.(arid := false, humid := true, dewPointDifference := 0.0)
    case Interior => c.(interior := true, coastal := false, island := false, kRs := 0.16)
    case Coastal => c.(interior := false, coastal := true, island := false, kRs := 0.19)
    case Island => c.(interior := false, coastal := false, island := true, kRs := 0.19)
  }

  /** A chain of setter calls, `Climate().humid().coastal()...`, applied
      left to right. */
  function ApplyAll(c: Climate, ss: seq<Setting>): Climate
  {
    if |ss| == 0 then c else Apply(ApplyAll(c, ss[..|ss| - 1]), ss[|ss| - 1])
  }

  /** The last setting of group `g` in a chain, if any. */
  function LastOf(ss: seq<Setting>, g: Group): (r: Option<Setting>)
    ensures r.Some? ==> GroupOf(r.value) == g && r.value in ss
  {
    if |ss| == 0 then None
    else if GroupOf(ss[|ss| - 1]) == g then Some(ss[|ss| - 1])
    else LastOf(ss[..|ss| - 1], g)
  }

  /** Every setter keeps a consistent profile consistent. */
  lemma ApplyKeepsConsistent(c: Climate, s: Setting)
    requires Consistent(c)
    ensures Consistent(Apply(c, s))
  {
  }

  /** Calling the same setter twice is the same as calling it once. */
  lemma ApplyIdempotent(c: Climate, s: Setting)
    ensures Apply(Apply(c, s), s) == Apply(c, s)
  {
  }

  /** Within a group the later setter wins: `c.island().coastal()` is
      `c.coastal()`. */
  lemma LaterSettingWins(c: Climate, s: Setting, t: Setting)
    requires GroupOf(s) == GroupOf(t)
    ensures Apply(Apply(c, s), t) == Apply(c, t)
  {
  }

  /** Setters of different groups commute: `c.humid().coastal()` is
      `c.coastal().humid()`. */
  lemma DifferentGroupsCommute(c: Climate, s: Setting, t: Setting)
    requires GroupOf(s) != GroupOf(t)
    ensures Apply(Apply(c, s), t) == Apply(Apply(c, t), s)
  {
  }

  /** Any chain of setters started from a consistent profile, in particular
      from `Climate()`, ends consistent. */
  lemma {:induction false} ChainKeepsConsistent(c: Climate, ss: seq<Setting>)
    requires Consistent(c)
    ensures Consistent(ApplyAll(c, ss))
  {
    if |ss| > 0 {
      ChainKeepsConsistent(c, ss[..|ss| - 1]);
      ApplyKeepsConsistent(ApplyAll(c, ss[..|ss| - 1]), ss[|ss| - 1]);
    }
  }

  /** What a setter writes into its own group does not depend on the
      profile it is applied to. */
  lemma SetterOverwritesGroup(c: Climate, d: Climate, s: Setting)
    ensures SameGroupFields(Apply(c, s), Apply(d, s), GroupOf(s))
  {
  }

  /** After a chain, each group holds what the last setter of that group
      wrote, or what the profile held before when the chain has none. */
  lemma {:induction false} ChainLastSettingWins(c: Climate, ss: seq<Setting>, g: Group)
    ensures LastOf(ss, g).Some? ==> SameGroupFields(ApplyAll(c, ss), Apply(c, LastOf(ss, g).value), g)
    ensures LastOf(ss, g).None? ==> SameGroupFields(ApplyAll(c, ss), c, g)
  {
    if |ss| > 0 {
      var init := ss[..|ss| - 1];
      var s := ss[|ss| - 1];
      var before := ApplyAll(c, init);
      assert ApplyAll(c, ss) == Apply(before, s);
      if GroupOf(s) == g {
        assert LastOf(ss, g) == Some(s);
        SetterOverwritesGroup(before, c, s);
      } else {
        assert LastOf(ss, g) == LastOf(init, g);
        ChainLastSettingWins(c, init, g);
        assert SameGroupFields(Apply(before, s), before, g);
      }
    }
  }

  /** A chain started from a profile with a positive average wind speed,
      `Climate()` among them, keeps it positive: every wind setter writes a
      positive speed and the others do not touch it. */
  lemma {:induction false} ChainKeepsWindPositive(c: Climate, ss: seq<Setting>)
    requires c.averageWindSpeed > 0.0
    ensures ApplyAll(c, ss).averageWindSpeed > 0.0
  {
    if |ss| > 0 {
      ChainKeepsWindPositive(c, ss[..|ss| - 1]);
      var before := ApplyAll(c, ss[..|ss| - 1]);
      var s := ss[|ss| - 1];
      if GroupOf(s) != WindGroup {
        assert SameGroupFields(Apply(before, s), before, WindGroup);
      }
    }
  }
}

=== FILE: entry.dfy ===
/** The derivations every entry shares (eto.py, class `TimeEntry`): each is a
    fallback chain that picks the first published equation whose inputs are
    present. "Present" is Python truthiness (`if x:`), so a logged zero counts
    as missing; the one exception, `RH_mean`, tests `!= None`. */
module Entries {
  import opened Optional
  import opened Fallback
  import opened Climates
  import opened Physics
  import opened Stations

  /** Everything a derivation consults besides the entry's own fields: the
      station as it is now, the formulas, the entry's sun geometry and the
      two range-check switches. */
  datatype Env = Env(station: Station, formulas: Formulas, astro: Astro, checks: Checks)

  /** `atmospheric_pressure`: the logged pressure, else the station's
      altitude estimate (Eq. 7). */
  function AtmosphericPressure(env: Env, e: Entry): (r: real)
    ensures Truthy(e.loggedPressure) ==> r == e.loggedPressure.value
    ensures !Truthy(e.loggedPressure) ==> r == env.formulas.pressureAtAltitude(env.station.altitude)
  {
    if Truthy(e.loggedPressure) then e.loggedPressure.value
    else env.formulas.pressureAtAltitude(env.station.altitude)
  }

  /** `psychrometric_constant`, Eq. 8, kPa per degree C: proportional to
      the pressure the entry sees, logged or estimated from the altitude. */
  function PsychrometricConstant(env: Env, e: Entry): (r: real)
    ensures Truthy(e.loggedPressure) ==> r == 0.000665 * e.loggedPressure.value
    ensures !Truthy(e.loggedPressure) ==> r == 0.000665 * env.formulas.pressureAtAltitude(env.station.altitude)
    ensures r > 0.0 <==> AtmosphericPressure(env, e) > 0.0
  {
    0.000665 * AtmosphericPressure(env, e)
  }

  // ----- mean temperature, Eq. 9 -----

  function TmeanCandidates(e: Entry): seq<Candidate<real>>
  {
    [ Candidate(Truthy(e.tempMean), Val(e.tempMean)),
      Candidate(Truthy(e.tempMax) && Truthy(e.tempMin), (Val(e.tempMax) + Val(e.tempMin)) / 2.0) ]
  }

  /** `Tmean`: the logged mean, else the average of the extremes. */
  function Tmean(e: Entry): (r: Option<real>)
    ensures r.Some? <==> Truthy(e.tempMean) || (Truthy(e.tempMax) && Truthy(e.tempMin))
    ensures Truthy(e.tempMean) ==> r == e.tempMean
    ensures !Truthy(e.tempMean) && r.Some? ==> r.value + r.value == e.tempMax.value + e.tempMin.value
  {
    if Truthy(e.tempMean) then e.tempMean
    else if Truthy(e.tempMax) && Truthy(e.tempMin) then Some((e.tempMax.value + e.tempMin.value) / 2.0)
    else None
  }

  /** A mean derived from the extremes lies between them. */
  lemma TmeanBetweenExtremes(e: Entry)
    requires !Truthy(e.tempMean) && Truthy(e.tempMin) && Truthy(e.tempMax)
    ensures Tmean(e).Some?
    ensures e.tempMin.value <= e.tempMax.value ==> e.tempMin.value <= Tmean(e).value <= e.tempMax.value
    ensures e.tempMax.value <= e.tempMin.value ==> e.tempMax.value <= Tmean(e).value <= e.tempMin.value
  {
  }

  // ----- dew point -----

  /** The dew-point offset of an optional climate profile. */
  function DewPointDifference(c: Option<Climate>): real
  {
    if c.Some? then c.value.dewPointDifference else 0.0
  }

  function DewPointCandidates(e: Entry): seq<Candidate<real>>
  {
    [ Candidate(Truthy(e.tempDew), Val(e.tempDew)),
      Candidate(Truthy(e.tempMin) && e.climate.Some?, Val(e.tempMin) - DewPointDifference(e.climate)) ]
  }

  /** `dew_point`: the logged dew point, else the daily minimum less the
      profile's offset; uses the profile captured when the entry was made. */
  function DewPoint(e: Entry): (r: Option<real>)
    ensures r.Some? <==> Truthy(e.tempDew) || (Truthy(e.tempMin) && e.climate.Some?)
    ensures Truthy(e.tempDew) ==> r == e.tempDew
    ensures !Truthy(e.tempDew) && r.Some? ==> r.value + e.climate.value.dewPointDifference == e.tempMin.value
  {
    if Truthy(e.tempDew) then e.tempDew
    else if Truthy(e.tempMin) && e.climate.Some? then Some(e.tempMin.value - e.climate.value.dewPointDifference)
    else None
  }

  /** Under a consistent profile the estimated dew point is the minimum
      itself in a humid climate and two degrees below it in an arid one. */
  lemma DewPointFromClimate(e: Entry)
    requires !Truthy(e.tempDew) && Truthy(e.tempMin)
    requires e.climate.Some? && HumidityConsistent(e.climate.value)
    ensures e.climate.value.humid ==> DewPoint(e) == e.tempMin
    ensures e.climate.value.arid ==> DewPoint(e) == Some(e.tempMin.value - 2.0)
  {
  }

  // ----- wind speed at 2 m, Eq. 47 -----

  function WindCandidates(env: Env, e: Entry): seq<Candidate<real>>
  {
    var h := env.station.anemometerHeight;
    var c := env.station.climate;
    [ Candidate(Truthy(e.windSpeed) && h == 2.0, Val(e.windSpeed)),
      Candidate(Truthy(e.windSpeed) && h != 2.0, Val(e.windSpeed) * env.formulas.windHeightFactor(h)),
      Candidate(c.Some?, if c.Some? then c.value.averageWindSpeed else 0.0) ]
  }

  /** `wind_speed_2m`: the logged speed, converted to 2 m when the
      anemometer stands elsewhere, else the current profile's average, else
      nothing. */
  function WindSpeed2m(env: Env, e: Entry): (r: Option<real>)
    // a truthy logged speed always wins, converted unless measured at 2 m
    ensures Truthy(e.windSpeed) && env.station.anemometerHeight == 2.0 ==> r == e.windSpeed
    ensures Truthy(e.windSpeed) && env.station.anemometerHeight != 2.0 ==>
      r.Some? && r.value == e.windSpeed.value * env.formulas.windHeightFactor(env.station.anemometerHeight)
    // otherwise the station's current profile, not the entry's, supplies it
    ensures !Truthy(e.windSpeed) ==>
      r == (if env.station.climate.Some? then Some(env.station.climate.value.averageWindSpeed) else None)
  {
    var h := env.station.anemometerHeight;
    if Truthy(e.windSpeed) && h == 2.0 then e.windSpeed
    else if Truthy(e.windSpeed) && h != 2.0 then Some(e.windSpeed.value * env.formulas.windHeightFactor(h))
    else if env.station.climate.Some? then Some(env.station.climate.value.averageWindSpeed)
    else None
  }

  /** No wind figure at all comes out only when nothing is logged and the
      station has no profile; a profile always supplies one. */
  lemma WindMissingOnlyWithoutClimate(env: Env, e: Entry)
    ensures WindSpeed2m(env, e).None? <==> !Truthy(e.windSpeed) && env.station.climate.None?
  {
  }

  // ----- vapour pressures -----

  function MeanSaturationCandidates(env: Env, e: Entry): seq<Candidate<real>>
  {
    var es := env.formulas.saturationVapourPressure;
    [ Candidate(Truthy(e.tempMax) && Truthy(e.tempMin), (es(Val(e.tempMax)) + es(Val(e.tempMin))) / 2.0),
      Candidate(Truthy(e.tempMean), es(Val(e.tempMean))) ]
  }

  /** `mean_saturation_vapour_pressure`, Eq. 12: from the extremes when both
      are present, else at the logged mean (not at `Tmean`). */
  function MeanSaturationVapourPressure(env: Env, e: Entry): (r: Option<real>)
    ensures r.Some? <==> (Truthy(e.tempMax) && Truthy(e.tempMin)) || Truthy(e.tempMean)
    // from the extremes it lies between e°(Tmin) and e°(Tmax)
    ensures Truthy(e.tempMax) && Truthy(e.tempMin) ==>
      var lo, hi := env.formulas.saturationVapourPressure(e.tempMin.value), env.formulas.saturationVapourPressure(e.tempMax.value);
      (lo <= hi ==> lo <= r.value <= hi) && (hi <= lo ==> hi <= r.value <= lo)
    ensures !(Truthy(e.tempMax) && Truthy(e.tempMin)) && Truthy(e.tempMean) ==>
      r == Some(env.formulas.saturationVapourPressure(e.tempMean.value))
  {
    var es := env.formulas.saturationVapourPressure;
    if Truthy(e.tempMax) && Truthy(e.tempMin) then Some((es(e.tempMax.value) + es(e.tempMin.value)) / 2.0)
    else if Truthy(e.tempMean) then Some(es(e.tempMean.value))
    else None
  }

  // The estimates of the actual vapour pressure, kPa; `es` is e°(T).

  /** Eq. 15, psychrometer: wet-bulb saturation less the dry/wet depression. */
  function FromPsychrometer(es: real -> real, gamma: real, dry: real, wet: real): real
  {
    es(wet) - gamma * (dry - wet)
  }

  /** Eq. 17: RHmax with Tmin and RHmin with Tmax. */
  function FromHumidityExtremes(es: real -> real, tmin: real, tmax: real, hmin: real, hmax: real): real
  {
    (es(tmin) * (hmax / 100.0) + es(tmax) * (hmin / 100.0)) / 2.0
  }

  /** Eq. 18: RHmax with Tmin only. */
  function FromHumidityMax(es: real -> real, tmin: real, hmax: real): real
  {
    es(tmin) * (hmax / 100.0)
  }

  /** Eq. 19: RHmean with the mean of e°(Tmax) and e°(Tmin). */
  function FromHumidityMean(es: real -> real, tmin: real, tmax: real, hmean: real): real
  {
    (hmean / 100.0) * ((es(tmax) + es(tmin)) / 2.0)
  }

  /** RHmean with e° at the logged mean temperature. */
  function FromHumidityAtMean(es: real -> real, tmean: real, hmean: real): real
  {
    (hmean / 100.0) * es(tmean)
  }

  function AvpCandidates(env: Env, e: Entry): seq<Candidate<real>>
  {
    var es := env.formulas.saturationVapourPressure;
    [ Candidate(Truthy(e.vapourPressure), Val(e.vapourPressure)),
      Candidate(Truthy(e.tempDry) && Truthy(e.tempWet),
                FromPsychrometer(es, PsychrometricConstant(env, e), Val(e.tempDry), Val(e.tempWet))),
      Candidate(Truthy(e.humidityMax) && Truthy(e.humidityMin) && Truthy(e.tempMax) && Truthy(e.tempMin),
                FromHumidityExtremes(es, Val(e.tempMin), Val(e.tempMax), Val(e.humidityMin), Val(e.humidityMax))),
      Candidate(Truthy(e.humidityMax) && Truthy(e.tempMin),
                FromHumidityMax(es, Val(e.tempMin), Val(e.humidityMax))),
      Candidate(Truthy(e.humidityMean) && Truthy(e.tempMax) && Truthy(e.tempMin),
                FromHumidityMean(es, Val(e.tempMin), Val(e.tempMax), Val(e.humidityMean))),
      Candidate(Truthy(e.humidityMean) && Truthy(e.tempMean),
                FromHumidityAtMean(es, Val(e.tempMean), Val(e.humidityMean))),
      Candidate(Truthy(DewPoint(e)), es(Val(DewPoint(e)))) ]
  }

  /** `actual_vapour_pressure`: the seven estimates of Eq. 14-19 tried in
      the source's order; the first whose inputs are all present wins. */
  function ActualVapourPressure(env: Env, e: Entry): (r: Option<real>)
    ensures r.Some? <==>
      || Truthy(e.vapourPressure)
      || (Truthy(e.tempDry) && Truthy(e.tempWet))
      || (Truthy(e.humidityMax) && Truthy(e.tempMin))
      || (Truthy(e.humidityMean) && Truthy(e.tempMax) && Truthy(e.tempMin))
      || (Truthy(e.humidityMean) && Truthy(e.tempMean))
      || Truthy(DewPoint(e))
    ensures Truthy(e.vapourPressure) ==> r == e.vapourPressure
  {
    var es := env.formulas.saturationVapourPressure;
    if Truthy(e.vapourPressure) then e.vapourPressure
    else if Truthy(e.tempDry) && Truthy(e.tempWet) then
      Some(FromPsychrometer(es, PsychrometricConstant(env, e), e.tempDry.value, e.tempWet.value))
    else if Truthy(e.humidityMax) && Truthy(e.humidityMin) && Truthy(e.tempMax) && Truthy(e.tempMin) then
      Some(FromHumidityExtremes(es, e.tempMin.value, e.tempMax.value, e.humidityMin.value, e.humidityMax.value))
    else if Truthy(e.humidityMax) && Truthy(e.tempMin) then
      Some(FromHumidityMax(es, e.tempMin.value, e.humidityMax.value))
    else if Truthy(e.humidityMean) && Truthy(e.tempMax) && Truthy(e.tempMin) then
      Some(FromHumidityMean(es, e.tempMin.value, e.tempMax.value, e.humidityMean.value))
    else if Truthy(e.humidityMean) && Truthy(e.tempMean) then
      Some(FromHumidityAtMean(es, e.tempMean.value, e.humidityMean.value))
    else if Truthy(DewPoint(e)) then
      Some(es(DewPoint(e).value))
    else None
  }

  /** With no humidity readings, no psychrometer and no logged vapour
      pressure, the actual vapour pressure is the saturation pressure at the
      dew point, which the profile supplies from the daily minimum (Eq. 48).
      An estimate of exactly zero, for instance a minimum of 2 degrees under
      an arid profile, fails `if self.dew_point():`, and then there is no
      actual vapour pressure and no deficit. */
  lemma VapourPressureFromMinimumTemperature(env: Env, e: Entry)
    requires !Truthy(e.vapourPressure) && !(Truthy(e.tempDry) && Truthy(e.tempWet))
    requires !Truthy(e.humidityMax) && !Truthy(e.humidityMean) && !Truthy(e.tempDew)
    requires Truthy(e.tempMin) && e.climate.Some?
    ensures e.tempMin.value != e.climate.value.dewPointDifference ==>
      ActualVapourPressure(env, e)
        == Some(env.formulas.saturationVapourPressure(e.tempMin.value - e.climate.value.dewPointDifference))
    ensures e.tempMin.value == e.climate.value.dewPointDifference ==>
      DewPoint(e) == Some(0.0) && ActualVapourPressure(env, e).None? && VapourPressureDeficit(env, e).Err?
  {
  }

  /** `vapour_pressure_deficit`: fails when either pressure is missing. */
  function VapourPressureDeficit(env: Env, e: Entry): (r: Result<real>)
    ensures r.Ok? <==> MeanSaturationVapourPressure(env, e).Some? && ActualVapourPressure(env, e).Some?
    ensures r.Ok? ==> r.value == MeanSaturationVapourPressure(env, e).value - ActualVapourPressure(env, e).value
  {
    var es :- Require(MeanSaturationVapourPressure(env, e));
    var ea :- Require(ActualVapourPressure(env, e));
    Ok(es - ea)
  }

  // ----- relative humidity -----

  /** `RH(T)`: relative humidity in percent at temperature `T`. */
  function RelativeHumidity(env: Env, e: Entry, t: real): (r: Result<real>)
    ensures r.Ok? <==> ActualVapourPressure(env, e).Some? && env.formulas.saturationVapourPressure(t) != 0.0
    ensures r.Ok? ==> r.value * env.formulas.saturationVapourPressure(t) == 100.0 * ActualVapourPressure(env, e).value
  {
    var ea :- Require(ActualVapourPressure(env, e));
    var es := env.formulas.saturationVapourPressure(t);
    if es == 0.0 then Err else Ok(100.0 * (ea / es))
  }

  /** `RH_mean`: the logged mean humidity whenever one is set, zero
      included; else the rounded average of the humidity at the two extremes;
      else nothing. */
  function RelativeHumidityMean(env: Env, e: Entry): (r: Result<Option<real>>)
    ensures e.humidityMean.Some? ==> r == Ok(e.humidityMean)
    ensures e.humidityMean.None? && !(Truthy(e.tempMin) && Truthy(e.tempMax)) ==> r == Ok(None)
    ensures e.humidityMean.None? && Truthy(e.tempMin) && Truthy(e.tempMax) ==>
      (r.Ok? <==> RelativeHumidity(env, e, e.tempMin.value).Ok? && RelativeHumidity(env, e, e.tempMax.value).Ok?)
    ensures e.humidityMean.None? && r.Ok? && r.value.Some? ==>
      var mid := (RelativeHumidity(env, e, e.tempMin.value).value + RelativeHumidity(env, e, e.tempMax.value).value) / 2.0;
      && r.value.value == r.value.value.Floor as real
      && mid - 0.5 <= r.value.value <= mid + 0.5
    // with both extremes truthy, success always yields the rounded midpoint
    ensures e.humidityMean.None? && Truthy(e.tempMin) && Truthy(e.tempMax) && r.Ok? ==>
      var mid := (RelativeHumidity(env, e, e.tempMin.value).value + RelativeHumidity(env, e, e.tempMax.value).value) / 2.0;
      r.value == Some(RoundHalfEven(mid) as real)
  {
    if e.humidityMean.Some? then Ok(e.humidityMean)
    else if Truthy(e.tempMin) && Truthy(e.tempMax) then
      var low :- RelativeHumidity(env, e, e.tempMin.value);
      var high :- RelativeHumidity(env, e, e.tempMax.value);
      Ok(Some(RoundHalfEven((low + high) / 2.0) as real))
    else Ok(None)
  }

  // ----- each chain is a first-match selection in the source's order -----

  lemma TmeanIsFirstMatch(e: Entry)
    ensures Tmean(e) == FirstMatch(TmeanCandidates(e))
  {
    var cs := TmeanCandidates(e);
    if cs[0].applies { FirstMatchAt(cs, 0); }
    else if cs[1].applies { FirstMatchAt(cs, 1); }
  }

  lemma DewPointIsFirstMatch(e: Entry)
    ensures DewPoint(e) == FirstMatch(DewPointCandidates(e))
  {
    var cs := DewPointCandidates(e);
    if cs[0].applies { FirstMatchAt(cs, 0); }
    else if cs[1].applies { FirstMatchAt(cs, 1); }
  }

  lemma WindSpeed2mIsFirstMatch(env: Env, e: Entry)
    ensures WindSpeed2m(env, e) == FirstMatch(WindCandidates(env, e))
  {
    var cs := WindCandidates(env, e);
    if cs[0].applies { FirstMatchAt(cs, 0); }
    else if cs[1].applies {
      FirstMatchAt(cs, 1);
      assert WindSpeed2m(env, e).value == cs[1].value;
    }
    else if cs[2].applies { FirstMatchAt(cs, 2); }
  }

  lemma MeanSaturationIsFirstMatch(env: Env, e: Entry)
    ensures MeanSaturationVapourPressure(env, e) == FirstMatch(MeanSaturationCandidates(env, e))
  {
    var cs := MeanSaturationCandidates(env, e);
    if cs[0].applies { FirstMatchAt(cs, 0); }
    else if cs[1].applies { FirstMatchAt(cs, 1); }
  }

  /** The logged value comes back unchanged; otherwise the psychrometer,
      RHmax+RHmin, RHmax, RHmean with extremes, RHmean with the mean and the
      dew point are tried in that order; nothing comes out when none applies. */
  lemma ActualVapourPressureIsFirstMatch(env: Env, e: Entry)
    ensures ActualVapourPressure(env, e) == FirstMatch(AvpCandidates(env, e))
  {
    var cs := AvpCandidates(env, e);
    if cs[0].applies { FirstMatchAt(cs, 0); }
    else if cs[1].applies {
      FirstMatchAt(cs, 1);
      assert ActualVapourPressure(env, e).value == cs[1].value;
    }
    else if cs[2].applies {
      FirstMatchAt(cs, 2);
      assert ActualVapourPressure(env, e).value == cs[2].value;
    }
    else if cs[3].applies {
      FirstMatchAt(cs, 3);
      assert ActualVapourPressure(env, e).value == cs[3].value;
    }
    else if cs[4].applies {
      FirstMatchAt(cs, 4);
      assert ActualVapourPressure(env, e).value == cs[4].value;
    }
    else if cs[5].applies {
      FirstMatchAt(cs, 5);
      assert ActualVapourPressure(env, e).value == cs[5].value;
    }
    else if cs[6].applies {
      FirstMatchAt(cs, 6);
      assert ActualVapourPressure(env, e).value == cs[6].value;
    }
  }

  // ----- truthiness -----

  /** The entry as the truthiness tests see it: every field read with
      `if x:` has its zero replaced by `None`. */
  function Normalised(e: Entry): Entry
  {
    e.(tempMin := Normalise(e.tempMin), tempMax := Normalise(e.tempMax),
       tempMean := Normalise(e.tempMean), tempDew := Normalise(e.tempDew),
       tempDry := Normalise(e.tempDry), tempWet := Normalise(e.tempWet),
       humidityMin := Normalise(e.humidityMin), humidityMax := Normalise(e.humidityMax),
       humidityMean := Normalise(e.humidityMean), windSpeed := Normalise(e.windSpeed),
       vapourPressure := Normalise(e.vapourPressure), loggedPressure := Normalise(e.loggedPressure))
  }

  /** The truthiness-driven chains cannot tell a logged zero from a missing
      value. */
  lemma ZeroReadsAsMissing(env: Env, e: Entry)
    ensures Tmean(Normalised(e)) == Tmean(e)
    ensures DewPoint(Normalised(e)) == DewPoint(e)
    ensures WindSpeed2m(env, Normalised(e)) == WindSpeed2m(env, e)
    ensures MeanSaturationVapourPressure(env, Normalised(e)) == MeanSaturationVapourPressure(env, e)
    ensures ActualVapourPressure(env, Normalised(e)) == ActualVapourPressure(env, e)
  {
    // Each chain's table of guards and estimates is the same for both entries.
    var n := Normalised(e);
    TmeanIsFirstMatch(n);
    TmeanIsFirstMatch(e);
    DewPointIsFirstMatch(n);
    DewPointIsFirstMatch(e);
    WindTableIgnoresZero(env, e);
    WindSpeed2mIsFirstMatch(env, n);
    WindSpeed2mIsFirstMatch(env, e);
    MeanSaturationIsFirstMatch(env, n);
    MeanSaturationIsFirstMatch(env, e);
    AvpTableIgnoresZero(env, e);
    ActualVapourPressureIsFirstMatch(env, n);
    ActualVapourPressureIsFirstMatch(env, e);
  }

  lemma WindTableIgnoresZero(env: Env, e: Entry)
    ensures WindCandidates(env, Normalised(e)) == WindCandidates(env, e)
  {
    var n := Normalised(e);
    var f, h := env.formulas.windHeightFactor, env.station.anemometerHeight;
    var cn, ce := WindCandidates(env, n), WindCandidates(env, e);
    assert cn[0] == ce[0];
    assert Val(n.windSpeed) * f(h) == Val(e.windSpeed) * f(h);
    assert cn[1].value == Val(n.windSpeed) * f(h);
    assert ce[1].value == Val(e.windSpeed) * f(h);
    assert cn[1] == ce[1];
    assert cn[2] == ce[2];
  }

  lemma AvpTableIgnoresZero(env: Env, e: Entry)
    ensures AvpCandidates(env, Normalised(e)) == AvpCandidates(env, e)
  {
    var n := Normalised(e);
    assert DewPoint(n) == DewPoint(e);
    assert PsychrometricConstant(env, n) == PsychrometricConstant(env, e);
  }

  /** `RH_mean` tests `!= None`, so unlike the chains above it returns a
      logged zero humidity rather than treating it as missing. */
  lemma RelativeHumidityMeanKeepsZero(env: Env, e: Entry)
    requires e.humidityMean == Some(0.0)
    ensures RelativeHumidityMean(env, e) == Ok(Some(0.0))
    ensures Normalised(e).humidityMean.None?
  {
  }
}

=== FILE: eto.dfy ===
/** Reference evapotranspiration (eto.py, `TimeEntry.eto` and
    `TimeEntry.eto_hargreaves`): FAO Penman-Monteith, Eq. 6 (Eq. 53 per
    hour), with Hargreaves' equation, Eq. 52, as the fallback when no wind
    figure can be had. */
module Evapotranspiration {
  import opened Optional
  import opened Climates
  import opened Stations
  import opened Entries
  import opened Radiation

  /** `eto_hargreaves`: needs both extremes (arithmetic on `None` raises; a
      zero is a value here) and a non-negative range, whose square root would
      otherwise be complex. The logged mean is not used. */
  function Hargreaves(env: Env, e: Entry): (r: Result<real>)
    ensures r.Ok? <==> e.tempMax.Some? && e.tempMin.Some? && e.tempMax.value >= e.tempMin.value
    ensures r.Ok? ==>
      r.value == 0.0023 * ((e.tempMax.value + e.tempMin.value) / 2.0 + 17.8)
                 * env.formulas.sqrt(e.tempMax.value - e.tempMin.value) * ExtraterrestrialRadiation(env, e)
  {
    var tmax :- Require(e.tempMax);
    var tmin :- Require(e.tempMin);
    if tmax - tmin < 0.0 then Err
    else
      var mean := (tmax + tmin) / 2.0;
      Ok(0.0023 * (mean + 17.8) * env.formulas.sqrt(tmax - tmin) * ExtraterrestrialRadiation(env, e))
  }

  /** Hargreaves' estimate depends on the extremes only: whatever mean
      temperature, humidity or wind is logged, it does not change. */
  lemma HargreavesUsesExtremesOnly(env: Env, e: Entry, mean: Option<real>, humidity: Option<real>, wind: Option<real>)
    ensures Hargreaves(env, e.(tempMean := mean, humidityMean := humidity, windSpeed := wind)) == Hargreaves(env, e)
  {
    var e' := e.(tempMean := mean, humidityMean := humidity, windSpeed := wind);
    assert e'.tempMax == e.tempMax && e'.tempMin == e.tempMin;
    assert ExtraterrestrialRadiation(env, e') == ExtraterrestrialRadiation(env, e);
    assert Hargreaves(env, e').Ok? == Hargreaves(env, e).Ok?;
    if Hargreaves(env, e).Ok? {
      assert Hargreaves(env, e').value == Hargreaves(env, e).value;
    }
  }

  /** Numerator and denominator of Eq. 6. */
  datatype Terms = Terms(numerator: real, denominator: real)

  /** Eq. 6 for known inputs: slope Δ, psychrometric constant γ, air
      conductance coefficient, mean temperature, wind at 2 m, net radiation,
      soil heat flux and vapour-pressure deficit. */
  function Eq6(slope: real, gamma: real, conductance: real, t: real, u2: real, rn: real, g: real, vpd: real): Terms
    requires t + 273.0 != 0.0
  {
    Terms(0.408 * slope * (rn - g) + gamma * (conductance / (t + 273.0)) * u2 * vpd,
          slope + gamma * (1.0 + 0.34 * u2))
  }

  /** The two sides of the Penman-Monteith fraction. Fails when the mean
      temperature, the net radiation, the soil heat flux, the wind figure or
      the vapour-pressure deficit is missing, or when `Tmean + 273` is zero. */
  function PenmanMonteithTerms(env: Env, e: Entry): (r: Result<Terms>)
    ensures r.Ok? <==>
      && Tmean(e).Some? && Tmean(e).value + 273.0 != 0.0
      && NetRadiation(env, e).Ok? && SoilHeatFlux(env, e).Ok?
      && WindSpeed2m(env, e).Some? && VapourPressureDeficit(env, e).Ok?
    ensures r.Ok? ==>
      r.value == Eq6(env.formulas.slopeOfSaturation(Tmean(e).value), PsychrometricConstant(env, e),
                     AirConductance(e), Tmean(e).value, WindSpeed2m(env, e).value,
                     NetRadiation(env, e).value, SoilHeatFlux(env, e).value, VapourPressureDeficit(env, e).value)
  {
    var t :- Require(Tmean(e));
    var rn :- NetRadiation(env, e);
    var g :- SoilHeatFlux(env, e);
    var u2 :- Require(WindSpeed2m(env, e));
    if t + 273.0 == 0.0 then Err
    else
      var vpd :- VapourPressureDeficit(env, e);
      Ok(Eq6(env.formulas.slopeOfSaturation(t), PsychrometricConstant(env, e), AirConductance(e), t, u2, rn, g, vpd))
  }

  /** The Penman-Monteith branch of `eto`: a negative numerator gives zero
      (the division is not reached), a zero denominator raises. */
  function PenmanMonteith(env: Env, e: Entry): (r: Result<real>)
    ensures Tmean(e).None? || NetRadiation(env, e).Err? || VapourPressureDeficit(env, e).Err? ==> r.Err?
    ensures PenmanMonteithTerms(env, e).Ok? && PenmanMonteithTerms(env, e).value.numerator < 0.0 ==> r == Ok(0.0)
    ensures r.Ok? <==>
      && PenmanMonteithTerms(env, e).Ok?
      && (PenmanMonteithTerms(env, e).value.numerator < 0.0 || PenmanMonteithTerms(env, e).value.denominator != 0.0)
    // the estimate is never negative unless the denominator is
    ensures r.Ok? && r.value < 0.0 ==> PenmanMonteithTerms(env, e).value.denominator < 0.0
    ensures r.Ok? && PenmanMonteithTerms(env, e).value.numerator >= 0.0 ==>
      r.value * PenmanMonteithTerms(env, e).value.denominator == PenmanMonteithTerms(env, e).value.numerator
  {
    var t :- PenmanMonteithTerms(env, e);
    if t.numerator < 0.0 then Ok(0.0)
    else if t.denominator == 0.0 then Err
    else
      var q := t.numerator / t.denominator;
      assert q * t.denominator == t.numerator;
      Ok(q)
  }

  /** The inputs under which `eto` has no wind figure to work with: a
      logged wind that the height conversion turns into zero, or no logged
      wind and a profile that is missing or has zero average wind. */
  predicate FallsBack(env: Env, e: Entry)
  {
    var h := env.station.anemometerHeight;
    var c := env.station.climate;
    || (Truthy(e.windSpeed) && h != 2.0 && env.formulas.windHeightFactor(h) == 0.0)
    || (!Truthy(e.windSpeed) && (c.None? || c.value.averageWindSpeed == 0.0))
  }

  /** The wind at 2 m, which `eto` tests with `if not`, is falsy exactly
      in the fallback cases. */
  lemma FallbackCondition(env: Env, e: Entry)
    ensures FallsBack(env, e) <==> !Truthy(WindSpeed2m(env, e))
  {
    var h := env.station.anemometerHeight;
    if Truthy(e.windSpeed) && h != 2.0 {
      assert WindSpeed2m(env, e).value == e.windSpeed.value * env.formulas.windHeightFactor(h);
    }
  }

  /** `eto`: Hargreaves when the wind figure is missing or zero, else
      Penman-Monteith. Stated in terms of the inputs: Hargreaves in the
      fallback cases, and otherwise it succeeds exactly when Penman-Monteith
      does (`EtoOtherwisePenmanMonteith` gives the value). */
  function Eto(env: Env, e: Entry): (r: Result<real>)
    ensures FallsBack(env, e) ==> r == Hargreaves(env, e)
    ensures !FallsBack(env, e) ==> (r.Ok? <==> PenmanMonteith(env, e).Ok?)
    // without a wind figure a missing extreme fails; with one, a missing mean
    ensures FallsBack(env, e) && (e.tempMax.None? || e.tempMin.None?) ==> r.Err?
    ensures !FallsBack(env, e) && Tmean(e).None? ==> r.Err?
  {
    FallbackCondition(env, e);
    if !Truthy(WindSpeed2m(env, e)) then Hargreaves(env, e) else PenmanMonteith(env, e)
  }

  /** Outside the fallback cases `eto` is the Penman-Monteith estimate. */
  lemma EtoOtherwisePenmanMonteith(env: Env, e: Entry)
    requires !FallsBack(env, e)
    ensures Eto(env, e) == PenmanMonteith(env, e)
  {
    FallbackCondition(env, e);
  }

  /** Once a wind figure is available, `eto` fails without a mean
      temperature and gives exactly zero for a negative numerator. */
  lemma PenmanMonteithBranch(env: Env, e: Entry)
    requires Truthy(WindSpeed2m(env, e))
    ensures Tmean(e).None? ==> Eto(env, e).Err?
    ensures PenmanMonteithTerms(env, e).Ok? && PenmanMonteithTerms(env, e).value.numerator < 0.0 ==> Eto(env, e) == Ok(0.0)
  {
  }

  /** A station whose profile was built by setter calls from `Climate()`
      never falls back to Hargreaves unless a logged wind is converted to
      zero: the profile's average wind is always positive. */
  lemma ProfileKeepsPenmanMonteith(env: Env, e: Entry, ss: seq<Setting>)
    requires env.station.climate == Some(ApplyAll(Default(), ss))
    requires !(Truthy(e.windSpeed) && env.station.anemometerHeight != 2.0
               && env.formulas.windHeightFactor(env.station.anemometerHeight) == 0.0)
    ensures !FallsBack(env, e)
  {
    ChainKeepsWindPositive(Default(), ss);
  }
}

=== FILE: factory.dfy ===
/** The station's entry factories (eto.py, `Station.day_entry` and
    `Station.hour_entry`). Each one stores a new entry in the station's map
    before it range-checks the radiation (and, per day, the sunshine hours),
    so an entry whose check raises is still recorded, without the refused
    reading. The model returns the updated station together with the
    outcome. */
module Factories {
  import opened Optional
  import opened Physics
  import opened Stations
  import opened Entries
  import opened Radiation

  /** The readings `day_entry` takes. */
  datatype DayReadings = DayReadings(
    tempMin: Option<real>,
    tempMax: Option<real>,
    tempMean: Option<real>,
    humidityMean: Option<real>,
    windSpeed: Option<real>,
    radiation: Option<real>,
    sunshineHours: Option<real>)

  /** The readings `hour_entry` takes. */
  datatype HourReadings = HourReadings(
    tempMin: Option<real>,
    tempMax: Option<real>,
    tempMean: Option<real>,
    humidityMean: Option<real>,
    windSpeed: Option<real>,
    radiation: Option<real>)

  /** The station after the call, and the entry returned or the error raised. */
  datatype Recorded = Recorded(station: Station, outcome: Result<Entry>)

  /** The entry as first stored: a fresh entry carrying the station's
      current profile, with the five plain readings copied in. */
  function StoredDay(st: Station, day: int, rd: DayReadings): (e: Entry)
    ensures e.resolution == Daily && e.dayNumber == day && e.climate == st.climate
    ensures e.tempMin == rd.tempMin && e.tempMax == rd.tempMax && e.tempMean == rd.tempMean
    ensures e.humidityMean == rd.humidityMean && e.windSpeed == rd.windSpeed
    ensures e.radiation.None? && e.sunshineHours.None?
    ensures NoUnloggedObservations(e)
  {
    EmptyEntry(Daily, day, st.climate).(tempMin := rd.tempMin, tempMax := rd.tempMax, tempMean := rd.tempMean,
                                         humidityMean := rd.humidityMean, windSpeed := rd.windSpeed)
  }

  /** `day_entry`'s radiation test: a truthy reading passes when the check is
      off or it does not exceed the day's R_so. */
  predicate DayRadiationPasses(env: Env, e: Entry, rs: Option<real>)
  {
    Truthy(rs) && env.checks.radiationRange ==> rs.value <= ClearSkyRadiation(env, e)
  }

  /** `day_entry`'s sunshine test: a truthy reading passes when the check is
      off or it does not exceed the day's daylight hours. */
  predicate SunshinePasses(env: Env, n: Option<real>)
  {
    Truthy(n) && env.checks.sunshineRange ==> n.value <= env.astro.daylightHours
  }

  /** `Station.day_entry` for a day number, with `env.astro` the sun
      geometry of that day. */
  function RecordDay(env: Env, day: int, rd: DayReadings): (r: Recorded)
    // outside 1..366 nothing is stored
    ensures !(1 <= day <= 366) ==> r == Recorded(env.station, Err)
    // otherwise the day is stored, pass or fail, and nothing else changes
    ensures 1 <= day <= 366 ==>
      && day in r.station.days
      && r.station == env.station.(days := env.station.days[day := r.station.days[day]])
      && var e := r.station.days[day];
         && e.resolution == Daily && e.dayNumber == day && e.climate == env.station.climate
         && e.tempMin == rd.tempMin && e.tempMax == rd.tempMax && e.tempMean == rd.tempMean
         && e.humidityMean == rd.humidityMean && e.windSpeed == rd.windSpeed
         && NoUnloggedObservations(e)
    ensures r.outcome.Ok? <==>
      && 1 <= day <= 366
      && DayRadiationPasses(env, StoredDay(env.station, day, rd), rd.radiation)
      && SunshinePasses(env, rd.sunshineHours)
    // the entry returned is the entry stored; a zero reading is not kept
    ensures r.outcome.Ok? ==>
      && r.station.days[day] == r.outcome.value
      && r.outcome.value.radiation == Normalise(rd.radiation)
      && r.outcome.value.sunshineHours == Normalise(rd.sunshineHours)
    // pass or fail, the stored day holds each reading whose test was passed
    // before anything raised, and nothing else
    ensures 1 <= day <= 366 ==>
      var keptRadiation := DayRadiationPasses(env, StoredDay(env.station, day, rd), rd.radiation);
      r.station.days[day] == StoredDay(env.station, day, rd).(
        radiation := if keptRadiation then Normalise(rd.radiation) else None,
        sunshineHours := if keptRadiation && SunshinePasses(env, rd.sunshineHours) then Normalise(rd.sunshineHours) else None)
  {
    if !(1 <= day <= 366) then Recorded(env.station, Err)
    else
      var e0 := StoredDay(env.station, day, rd);
      if Truthy(rd.radiation) && env.checks.radiationRange && rd.radiation.value > ClearSkyRadiation(env, e0) then
        Recorded(env.station.(days := env.station.days[day := e0]), Err)
      else
        var e1 := if Truthy(rd.radiation) then e0.(radiation := rd.radiation) else e0;
        if Truthy(rd.sunshineHours) && env.checks.sunshineRange && rd.sunshineHours.value > env.astro.daylightHours then
          Recorded(env.station.(days := env.station.days[day := e1]), Err)
        else
          var e2 := if Truthy(rd.sunshineHours) then e1.(sunshineHours := rd.sunshineHours) else e1;
          Recorded(env.station.(days := env.station.days[day := e2]), Ok(e2))
  }

  /** A radiation reading above R_so raises, yet the day stays recorded
      without radiation and without sunshine hours, whose test is never
      reached. */
  lemma RejectedRadiationStillStored(env: Env, day: int, rd: DayReadings)
    requires 1 <= day <= 366 && env.checks.radiationRange
    requires Truthy(rd.radiation) && rd.radiation.value > ClearSkyRadiation(env, StoredDay(env.station, day, rd))
    ensures RecordDay(env, day, rd).outcome.Err?
    ensures RecordDay(env, day, rd).station.days[day] == StoredDay(env.station, day, rd)
  {
  }

  /** The sunshine test comes after the radiation reading is stored, so a
      refused sunshine reading raises with the accepted radiation kept. */
  lemma RejectedSunshineKeepsRadiation(env: Env, day: int, rd: DayReadings)
    requires 1 <= day <= 366 && env.checks.sunshineRange && Truthy(rd.radiation)
    requires DayRadiationPasses(env, StoredDay(env.station, day, rd), rd.radiation)
    requires Truthy(rd.sunshineHours) && rd.sunshineHours.value > env.astro.daylightHours
    ensures RecordDay(env, day, rd).outcome.Err?
    ensures RecordDay(env, day, rd).station.days[day].radiation == rd.radiation
    ensures RecordDay(env, day, rd).station.days[day].sunshineHours.None?
  {
  }

  /** Round trip: a radiation reading `day_entry` accepts is what
      `solar_radiation` of the stored day gives back, checks on or off. */
  lemma DayRadiationRoundTrip(env: Env, day: int, rd: DayReadings)
    requires RecordDay(env, day, rd).outcome.Ok? && Truthy(rd.radiation)
    ensures var r := RecordDay(env, day, rd);
      DailySolarRadiation(env.(station := r.station), r.outcome.value) == Ok(rd.radiation.value)
  {
    var r := RecordDay(env, day, rd);
    var env' := env.(station := r.station);
    var e := r.outcome.value;
    assert ClearSkyRadiation(env', e) == ClearSkyRadiation(env, StoredDay(env.station, day, rd));
  }

  /** Round trip for sunshine: with no radiation logged, accepted positive
      sunshine hours `n` feed the Angstrom estimate unchanged. */
  lemma DaySunshineRoundTrip(env: Env, day: int, rd: DayReadings, n: real)
    requires RecordDay(env, day, rd).outcome.Ok? && !Truthy(rd.radiation)
    requires rd.sunshineHours == Some(n) && n > 0.0 && env.astro.daylightHours != 0.0
    ensures var r := RecordDay(env, day, rd);
      DailySolarRadiation(env.(station := r.station), r.outcome.value)
        == Ok((0.25 + 0.50 * n / env.astro.daylightHours) * env.astro.dailyRa)
  {
    var r := RecordDay(env, day, rd);
    var env' := env.(station := r.station);
    var e := r.outcome.value;
    assert !Truthy(e.radiation) && e.sunshineHours == rd.sunshineHours;
    assert ExtraterrestrialRadiation(env', e) == env.astro.dailyRa;
    assert SunshinePasses(env, rd.sunshineHours);
    assert Angstrom(env', e, n).Ok?;
    assert Angstrom(env', e, n).value == (0.25 + 0.50 * n / env.astro.daylightHours) * env.astro.dailyRa;
    assert DailySolarRadiation(env', e) == Angstrom(env', e, n);
  }

  /** The sunshine test only bounds the reading from above: negative hours
      are stored, and `solar_radiation` of the stored day then raises. */
  lemma NegativeSunshineStoredThenRefused(env: Env, day: int, rd: DayReadings)
    requires 1 <= day <= 366 && !Truthy(rd.radiation)
    requires rd.sunshineHours.Some? && rd.sunshineHours.value < 0.0 && env.astro.daylightHours >= 0.0
    ensures RecordDay(env, day, rd).outcome.Ok?
    ensures var r := RecordDay(env, day, rd);
      DailySolarRadiation(env.(station := r.station), r.outcome.value).Err?
  {
  }

  // ----- hourly entries -----

  /** The hourly entry as first stored. `key` stands for the whole hours
      since the epoch of the hour's timestamp and `day` for its day of the
      year; both come from date handling the model leaves out. */
  function StoredHour(st: Station, day: int, rd: HourReadings): (e: Entry)
    ensures e.resolution == Hourly && e.dayNumber == day && e.climate == st.climate
    ensures e.tempMin == rd.tempMin && e.tempMax == rd.tempMax && e.tempMean == rd.tempMean
    ensures e.humidityMean == rd.humidityMean && e.windSpeed == rd.windSpeed
    ensures e.radiation.None?
    ensures NoUnloggedObservations(e)
  {
    EmptyEntry(Hourly, day, st.climate).(tempMin := rd.tempMin, tempMax := rd.tempMax, tempMean := rd.tempMean,
                                          humidityMean := rd.humidityMean, windSpeed := rd.windSpeed)
  }

  /** The comparison `hour_entry` makes as written: a reading is kept only
      when it exceeds R_so by MORE than 5 %. */
  predicate HourRadiationPassesAsWritten(rs: real, rso: real)
  {
    rs - rso > 0.05 * rso
  }

  /** The common shape of both versions of `hour_entry`: store, then keep a
      truthy reading when `passes` holds or the check is off. */
  function RecordHourWith(env: Env, key: int, day: int, rd: HourReadings, passes: bool): (r: Recorded)
    ensures key in r.station.hours
    ensures r.station == env.station.(hours := env.station.hours[key := r.station.hours[key]])
    ensures r.station.hours[key].climate == env.station.climate && NoUnloggedObservations(r.station.hours[key])
    ensures r.outcome.Ok? <==> !(Truthy(rd.radiation) && env.checks.radiationRange && !passes)
    ensures r.outcome.Ok? ==> r.station.hours[key] == r.outcome.value && r.outcome.value.radiation == Normalise(rd.radiation)
    ensures r.outcome.Ok? ==> r.outcome.value == StoredHour(env.station, day, rd).(radiation := Normalise(rd.radiation))
    ensures r.outcome.Err? ==> r.station.hours[key] == StoredHour(env.station, day, rd)
  {
    var e0 := StoredHour(env.station, day, rd);
    if Truthy(rd.radiation) && env.checks.radiationRange && !passes then
      Recorded(env.station.(hours := env.station.hours[key := e0]), Err)
    else
      var e1 := if Truthy(rd.radiation) then e0.(radiation := rd.radiation) else e0;
      Recorded(env.station.(hours := env.station.hours[key := e1]), Ok(e1))
  }

  /** `Station.hour_entry` as the source has it. */
  function RecordHourAsWritten(env: Env, key: int, day: int, rd: HourReadings): (r: Recorded)
    ensures Truthy(rd.radiation) && env.checks.radiationRange ==>
      (r.outcome.Ok? <==> HourRadiationPassesAsWritten(rd.radiation.value, ClearSkyRadiation(env, StoredHour(env.station, day, rd))))
  {
    var rso := ClearSkyRadiation(env, StoredHour(env.station, day, rd));
    RecordHourWith(env, key, day, rd, Truthy(rd.radiation) && HourRadiationPassesAsWritten(rd.radiation.value, rso))
  }

  /** The comparison as written is inverted. By day (R_so > 0) every reading
      it lets through is one that `HourEntry.solar_radiation` of the stored
      hour refuses, and every reading in (0, R_so] is refused at entry. */
  lemma AsWrittenHourCheckInverted(env: Env, key: int, day: int, rd: HourReadings)
    requires env.checks.radiationRange && Truthy(rd.radiation)
    requires ClearSkyRadiation(env, StoredHour(env.station, day, rd)) > 0.0
    ensures var r := RecordHourAsWritten(env, key, day, rd);
      r.outcome.Ok? ==> HourlySolarRadiation(env.(station := r.station), r.outcome.value).Err?
    ensures 0.0 < rd.radiation.value <= ClearSkyRadiation(env, StoredHour(env.station, day, rd)) ==>
      RecordHourAsWritten(env, key, day, rd).outcome.Err?
  {
    var r := RecordHourAsWritten(env, key, day, rd);
    var rso := ClearSkyRadiation(env, StoredHour(env.station, day, rd));
    if r.outcome.Ok? {
      var env' := env.(station := r.station);
      assert ClearSkyRadiation(env', r.outcome.value) == rso;
      assert rd.radiation.value > 1.05 * rso;
    }
  }

  /** A concrete case: at sea level with R_a = 2 MJ m^-2 per hour, R_so is
      1.5; a reading of 1.0 is refused at entry, and a reading of 2.0 is
      accepted at entry and then refused by `solar_radiation`. */
  lemma AsWrittenHourExample(st: Station, f: Formulas, key: int)
    requires st.altitude == 0
    ensures var env := Env(st, f, Astro(0.0, 1.0, 0.0, 0.0, 2.0), Checks(true, true));
      var low := HourReadings(None, None, None, None, None, Some(1.0));
      var high := HourReadings(None, None, None, None, None, Some(2.0));
      && ClearSkyRadiation(env, StoredHour(st, 1, low)) == 1.5
      && RecordHourAsWritten(env, key, 1, low).outcome.Err?
      && RecordHourAsWritten(env, key, 1, high).outcome.Ok?
      && HourlySolarRadiation(env.(station := RecordHourAsWritten(env, key, 1, high).station),
                              RecordHourAsWritten(env, key, 1, high).outcome.value).Err?
  {
  }

  /** `Station.hour_entry` with the comparison the docstring describes: the
      reading is kept exactly when it lies within the tolerance band that
      `HourEntry.solar_radiation` applies. */
  function RecordHour(env: Env, key: int, day: int, rd: HourReadings): (r: Recorded)
    ensures key in r.station.hours
    ensures r.station == env.station.(hours := env.station.hours[key := r.station.hours[key]])
    ensures r.station.hours[key].climate == env.station.climate && NoUnloggedObservations(r.station.hours[key])
    ensures r.outcome.Ok? ==> r.station.hours[key] == r.outcome.value && r.outcome.value.radiation == Normalise(rd.radiation)
    ensures r.outcome.Ok? ==> r.outcome.value == StoredHour(env.station, day, rd).(radiation := Normalise(rd.radiation))
    ensures r.outcome.Err? ==> r.station.hours[key] == StoredHour(env.station, day, rd)
  {
    var rso := ClearSkyRadiation(env, StoredHour(env.station, day, rd));
    RecordHourWith(env, key, day, rd, Truthy(rd.radiation) && WithinHourlyBand(rd.radiation.value, rso))
  }

  /** With the corrected comparison, entry and accessor agree: a truthy
      reading is accepted by `RecordHour` exactly when `solar_radiation` of
      the stored hour accepts it, and then it comes back unchanged. */
  lemma HourRadiationRoundTrip(env: Env, key: int, day: int, rd: HourReadings)
    requires Truthy(rd.radiation)
    ensures var r := RecordHour(env, key, day, rd);
      var e := StoredHour(env.station, day, rd).(radiation := rd.radiation);
      r.outcome.Ok? <==> HourlySolarRadiation(env, e).Ok?
    ensures var r := RecordHour(env, key, day, rd);
      r.outcome.Ok? ==> HourlySolarRadiation(env.(station := r.station), r.outcome.value) == Ok(rd.radiation.value)
  {
    var r := RecordHour(env, key, day, rd);
    var e := StoredHour(env.station, day, rd).(radiation := rd.radiation);
    var rso := ClearSkyRadiation(env, StoredHour(env.station, day, rd));
    assert ClearSkyRadiation(env, e) == rso;
    HourlyBandAsBound(rd.radiation.value, rso);
    if r.outcome.Ok? {
      var env' := env.(station := r.station);
      assert r.outcome.value == e;
      assert ClearSkyRadiation(env', e) == rso;
    }
  }
}

=== FILE: fallback.dfy ===
/** First-match selection: the shape of every estimation chain in the
    system. Each alternative has a guard over which inputs are present and
    the estimate it yields; the first alternative whose guard holds wins. */
module Fallback {
  import opened Optional

  /** One alternative of a fallback chain. */
  datatype Candidate<T> = Candidate(applies: bool, value: T)

  /** No alternative before position `k` applies. */
  predicate NoneApplyBefore<T>(cs: seq<Candidate<T>>, k: nat)
    requires k <= |cs|
  {
    forall j :: 0 <= j < k ==> !cs[j].applies
  }

  /** The value of the first alternative, in order, whose guard holds, or
      `None` when no guard holds. */
  function FirstMatch<T>(cs: seq<Candidate<T>>): (r: Option<T>)
    ensures r.None? <==> NoneApplyBefore(cs, |cs|)
    ensures r.Some? ==>
      exists k :: 0 <= k < |cs| && cs[k].applies && NoneApplyBefore(cs, k) && r.value == cs[k].value
  {
    if |cs| == 0 then None
    else if cs[0].applies then
      assert NoneApplyBefore(cs, 0);
      Some(cs[0].value)
    else
      var r := FirstMatch(cs[1..]);
      assert r.Some? ==> exists k :: 0 <= k < |cs| && cs[k].applies && NoneApplyBefore(cs, k) && r.value == cs[k].value by {
        if r.Some? {
          var k :| 0 <= k < |cs[1..]| && cs[1..][k].applies && NoneApplyBefore(cs[1..], k) && r.value == cs[1..][k].value;
          assert cs[k + 1] == cs[1..][k];
          assert NoneApplyBefore(cs, k + 1);
        }
      }
      assert NoneApplyBefore(cs[1..], |cs| - 1) ==> NoneApplyBefore(cs, |cs|) by {
        if NoneApplyBefore(cs[1..], |cs| - 1) {
          forall j | 0 <= j < |cs|
            ensures !cs[j].applies
          {
            if j > 0 {
              assert cs[j] == cs[1..][j - 1];
            }
          }
        }
      }
      r
  }

  /** The chosen alternative is determined: if alternative `k` applies and no
      earlier one does, the chain yields exactly its value. */
  lemma {:induction false} FirstMatchAt<T>(cs: seq<Candidate<T>>, k: nat)
    requires k < |cs| && cs[k].applies && NoneApplyBefore(cs, k)
    ensures FirstMatch(cs) == Some(cs[k].value)
  {
    if k > 0 {
      assert !cs[0].applies;
      assert cs[1..][k - 1] == cs[k];
      assert NoneApplyBefore(cs[1..], k - 1) by {
        forall j | 0 <= j < k - 1
          ensures !cs[1..][j].applies
        {
          assert cs[1..][j] == cs[j + 1];
        }
      }
      FirstMatchAt(cs[1..], k - 1);
    }
  }
}

=== FILE: optional.dfy ===
/** Missing values and fallible results: the model's stand-ins for Python's
    `None` and for raised exceptions. */
module Optional {

  /** A value that may be missing; `None` models Python's `None`. */
  datatype Option<+T> = None | Some(value: T) {

    /** The value, or `default` when it is missing. */
    function GetOr(default: T): T
    {
      match this
      case Some(v) => v
      case None => default
    }
  }

  /** The outcome of a computation that may raise. The model keeps one error
      outcome and does not distinguish exception classes. */
  datatype Result<+T> = Ok(value: T) | Err {

    predicate IsFailure()
    {
      Err?
    }

    function PropagateFailure<U>(): Result<U>
      requires Err?
    {
      Err
    }

    function Extract(): T
      requires Ok?
    {
      value
    }
  }

  /** Turns a missing value into an error, as Python does when it does
      arithmetic on `None`. */
  function Require<T>(o: Option<T>): (r: Result<T>)
    ensures r.Ok? <==> o.Some?
    ensures r.Ok? ==> r.value == o.value
  {
    match o
    case Some(v) => Ok(v)
    case None => Err
  }

  /** Python truthiness of an optional number: `if x:` fails both for `None`
      and for zero. */
  predicate Truthy(o: Option<real>)
  {
    o.Some? && o.value != 0.0
  }

  /** The number inside an option, zero when it is missing. Only read where
      the option has been found truthy. */
  function Val(o: Option<real>): (r: real)
    ensures o.Some? ==> r == o.value
    ensures o.None? ==> r == 0.0
  {
    o.GetOr(0.0)
  }

  /** What a truthiness test sees of an optional number: a zero reads as
      missing. */
  function Normalise(o: Option<real>): (r: Option<real>)
    ensures Truthy(r) == Truthy(o)
    ensures r.Some? ==> r == o && r.value != 0.0
    ensures Val(r) == Val(o)
  {
    if Truthy(o) then o else None
  }
}

=== FILE: physics.dfy ===
/** The closed-form numerics of FAO Irrigation and Drainage Paper 56 that
    involve exp, log, trigonometry, square roots or fractional powers. The
    model does not compute them: they are supplied by the caller, either as
    functions (`Formulas`) or, for the sun-geometry of one entry's day and
    hour, as numbers (`Astro`). Everything built from them in the other
    modules is exact real arithmetic. */
module Physics {

  /** Formulas of the paper the model treats as given. */
  datatype Formulas = Formulas(
    saturationVapourPressure: real -> real,  // e°(T), Eq. 11
    slopeOfSaturation: real -> real,         // Δ(T), Eq. 13
    sqrt: real -> real,                      // square root of a non-negative number
    clearSkyEmissivity: real -> real,        // 8.733e-3 (T + 273.16)^0.788, hourly longwave
    pressureAtAltitude: int -> real,         // P(z) in kPa, Eq. 7
    windHeightFactor: real -> real)          // 4.87 / ln(67.8 z - 5.42), Eq. 47

  /** Sun geometry of one entry: values that depend on the day of the year,
      the hour and the station's latitude and longitude. */
  datatype Astro = Astro(
    dailyRa: real,            // extraterrestrial radiation of the day, Eq. 21
    sunsetHourAngle: real,    // ω_s, Eq. 25
    daylightHours: real,      // N, Eq. 34
    solarTimeAngle: real,     // ω at the middle of the hour, Eq. 31
    hourlyRaInWindow: real)   // Eq. 28 for an hour inside [-ω_s, ω_s]

  /** Stefan-Boltzmann constant per day, MJ K^-4 m^-2 day^-1. */
  const StefanBoltzmann: real := 0.000000004903

  /** Offset from degrees Celsius to kelvin the source uses in radiation terms. */
  const Kelvin: real := 273.16

  function Pow4(x: real): (r: real)
    ensures r >= 0.0
  {
    (x * x) * (x * x)
  }

  /** Python's `round(x, 0)` followed by `int(...)`: nearest integer, ties to
      the even neighbour. */
  function RoundHalfEven(x: real): (r: int)
    ensures x - 0.5 <= r as real <= x + 0.5
    ensures (r as real - x == 0.5 || x - r as real == 0.5) ==> r % 2 == 0
    ensures x == x.Floor as real ==> r == x.Floor
  {
    var f := x.Floor;
    var d := x - f as real;
    if d < 0.5 then f
    else if d > 0.5 then f + 1
    else if f % 2 == 0 then f
    else f + 1
  }
}

=== FILE: radiation.dfy ===
/** Radiation terms (eto.py, `TimeEntry.R_a` to `net_radiation` and the
    overrides in `DayEntry` and `HourEntry`). Where the two subclasses differ
    the functions dispatch on the entry's resolution. */
module Radiation {
  import opened Optional
  import opened Climates
  import opened Physics
  import opened Stations
  import opened Entries

  // ----- extraterrestrial and clear-sky radiation -----

  /** `HourEntry.R_a`: zero when the middle of the hour lies outside the
      daylight window [-ω_s, ω_s], else Eq. 28 for the hour. */
  function HourlyRa(a: Astro): (r: real)
    ensures (a.solarTimeAngle < -a.sunsetHourAngle || a.solarTimeAngle > a.sunsetHourAngle) ==> r == 0.0
    ensures -a.sunsetHourAngle <= a.solarTimeAngle <= a.sunsetHourAngle ==> r == a.hourlyRaInWindow
  {
    var ws := a.sunsetHourAngle;
    var w := a.solarTimeAngle;
    if w < -ws || w > ws then 0.0 else a.hourlyRaInWindow
  }

  /** `R_a` of the entry's period: Eq. 21 for a day, `HourlyRa` for an hour. */
  function ExtraterrestrialRadiation(env: Env, e: Entry): (r: real)
    ensures e.resolution == Daily ==> r == env.astro.dailyRa
    // an hour outside the daylight window receives nothing
    ensures e.resolution == Hourly ==>
      r == (if -env.astro.sunsetHourAngle <= env.astro.solarTimeAngle <= env.astro.sunsetHourAngle
            then env.astro.hourlyRaInWindow else 0.0)
  {
    match e.resolution
    case Daily => env.astro.dailyRa
    case Hourly => HourlyRa(env.astro)
  }

  /** The factor R_so / R_a: Eq. 36 below 100 m, Eq. 37 from 100 m up. */
  function ClearSkyCoefficient(altitude: int): (r: real)
    ensures altitude < 100 ==> r == 0.75
    ensures altitude >= 100 ==> r == 0.75 + 0.00002 * altitude as real && r >= 0.752
  {
    if altitude < 100 then 0.25 + 0.50 else 0.75 + 0.00002 * altitude as real
  }

  /** `R_so`, clear-sky radiation. */
  function ClearSkyRadiation(env: Env, e: Entry): (r: real)
    ensures env.station.altitude < 100 ==> r == 0.75 * ExtraterrestrialRadiation(env, e)
    ensures env.station.altitude >= 100 ==>
      r == (0.75 + 0.00002 * env.station.altitude as real) * ExtraterrestrialRadiation(env, e)
    // no extraterrestrial radiation, no clear-sky radiation
    ensures r == 0.0 <==> ExtraterrestrialRadiation(env, e) == 0.0
  {
    ClearSkyCoefficient(env.station.altitude) * ExtraterrestrialRadiation(env, e)
  }

  /** The clear-sky factor is 0.75 below 100 m and grows with altitude
      from there, so for a non-negative R_a the ceiling never falls as the
      station gets higher. */
  lemma ClearSkyRisesWithAltitude(low: int, high: int, ra: real)
    requires low <= high && ra >= 0.0
    ensures low < 100 ==> ClearSkyCoefficient(low) == 0.75
    ensures ClearSkyCoefficient(low) >= 0.75
    ensures ClearSkyCoefficient(low) * ra <= ClearSkyCoefficient(high) * ra
  {
    assert ClearSkyCoefficient(low) <= ClearSkyCoefficient(high);
  }

  // ----- solar radiation, daily -----

  /** Hargreaves' radiation coefficient as `DayEntry.solar_radiation` picks
      it: 0.19 only for a coastal profile. The profile's own `kRs` is not
      consulted, so an island above 100 m gets 0.16. */
  function HargreavesKrs(c: Climate): real
  {
    if c.coastal then 0.19 else 0.16
  }

  /** The Angstrom estimate, Eq. 35, for sunshine hours `n`: refuses a
      negative `n`, an `n` above the daylight hours when the sunshine check
      is on, and zero daylight hours (the division). */
  function Angstrom(env: Env, e: Entry, n: real): (r: Result<real>)
    ensures r.Ok? <==> n >= 0.0 && !(n > env.astro.daylightHours && env.checks.sunshineRange) && env.astro.daylightHours != 0.0
    ensures r.Ok? ==> r.value == (0.25 + 0.50 * n / env.astro.daylightHours) * ExtraterrestrialRadiation(env, e)
  {
    var daylight := env.astro.daylightHours;
    if n < 0.0 then Err
    else if n > daylight && env.checks.sunshineRange then Err
    else if daylight == 0.0 then Err
    else Ok((0.25 + 0.50 * n / daylight) * ExtraterrestrialRadiation(env, e))
  }

  /** `DayEntry.solar_radiation`: the logged value, checked against R_so;
      else Angstrom with the logged sunshine hours; else Eq. 51 for a low
      island; else Eq. 50 from the temperature range; else Angstrom with full
      sunshine (n = N). */
  function DailySolarRadiation(env: Env, e: Entry): (r: Result<real>)
    // a logged value comes back unchanged, or is refused when it exceeds R_so and the check is on
    ensures Truthy(e.radiation) ==>
      && (r.Ok? <==> !(env.checks.radiationRange && e.radiation.value > ClearSkyRadiation(env, e)))
      && (r.Ok? ==> r.value == e.radiation.value)
    ensures !Truthy(e.radiation) && e.sunshineHours.Some? ==> r == Angstrom(env, e, e.sunshineHours.value)
    ensures !Truthy(e.radiation) && e.sunshineHours.None? ==>
      var c := env.station.climate;
      var ra := ExtraterrestrialRadiation(env, e);
      if c.Some? && c.value.island && env.station.altitude < 100 then
        r == Ok(0.7 * ra - 4.0)
      else if c.Some? && Truthy(e.tempMin) && Truthy(e.tempMax) then
        && (r.Ok? <==> e.tempMax.value >= e.tempMin.value)
        && (r.Ok? ==> r.value == HargreavesKrs(c.value) * env.formulas.sqrt(e.tempMax.value - e.tempMin.value) * ra)
      else
        r == Angstrom(env, e, env.astro.daylightHours)
  {
    var c := env.station.climate;
    var ra := ExtraterrestrialRadiation(env, e);
    if Truthy(e.radiation) then
      if env.checks.radiationRange && e.radiation.value > ClearSkyRadiation(env, e) then Err
      else Ok(e.radiation.value)
    else if e.sunshineHours.Some? then
      Angstrom(env, e, e.sunshineHours.value)
    else if c.Some? && c.value.island && env.station.altitude < 100 then
      Ok(0.7 * ra - 4.0)
    else if c.Some? && Truthy(e.tempMin) && Truthy(e.tempMax) then
      // math.sqrt of a negative range raises
      if e.tempMax.value - e.tempMin.value < 0.0 then Err
      else Ok(HargreavesKrs(c.value) * env.formulas.sqrt(e.tempMax.value - e.tempMin.value) * ra)
    else
      Angstrom(env, e, env.astro.daylightHours)
  }

  /** Assuming full sunshine reproduces the clear-sky ceiling below 100 m:
      Eq. 35 with n = N is Eq. 36. */
  lemma FullSunshineIsClearSky(env: Env, e: Entry)
    requires env.astro.daylightHours > 0.0 && env.station.altitude < 100
    ensures Angstrom(env, e, env.astro.daylightHours) == Ok(ClearSkyRadiation(env, e))
  {
    var n := env.astro.daylightHours;
    assert 0.50 * n / n == 0.50;
  }

  /** The Angstrom factor f = a_s + b_s n/N lies between a_s and a_s + b_s. */
  lemma AngstromFactorBounds(n: real, daylight: real, f: real, ra: real)
    requires daylight > 0.0 && 0.0 <= n <= daylight && ra >= 0.0
    requires f == 0.25 + 0.50 * n / daylight
    ensures 0.25 * ra <= f * ra <= 0.75 * ra
  {
    var frac := 0.50 * n / daylight;
    assert frac * daylight == 0.50 * n;
    assert 0.0 <= frac <= 0.50;
    assert 0.0 <= frac * ra <= 0.50 * ra;
    assert f * ra == 0.25 * ra + frac * ra;
  }

  /** With 0 <= n <= N and a non-negative R_a the Angstrom estimate lies
      between a quarter of R_a and the clear-sky ceiling. */
  lemma AngstromWithinClearSky(env: Env, e: Entry, n: real)
    requires env.astro.daylightHours > 0.0 && 0.0 <= n <= env.astro.daylightHours
    requires ExtraterrestrialRadiation(env, e) >= 0.0
    ensures Angstrom(env, e, n).Ok?
    ensures 0.25 * ExtraterrestrialRadiation(env, e) <= Angstrom(env, e, n).value <= ClearSkyRadiation(env, e)
  {
    var ra := ExtraterrestrialRadiation(env, e);
    var f := 0.25 + 0.50 * n / env.astro.daylightHours;
    var v := Angstrom(env, e, n).value;
    assert v == f * ra;
    AngstromFactorBounds(n, env.astro.daylightHours, f, ra);
    var k := ClearSkyCoefficient(env.station.altitude);
    ClearSkyRisesWithAltitude(env.station.altitude, env.station.altitude, ra);
    assert 0.75 * ra <= k * ra;
    assert ClearSkyRadiation(env, e) == k * ra;
    assert v <= k * ra;
  }

  // ----- solar radiation, hourly -----

  /** The tolerance band of `HourEntry.solar_radiation` as the source writes
      it: near zero at night, at most 5 % above R_so by day. */
  predicate WithinHourlyBand(rs: real, rso: real)
  {
    && !(rso == 0.0 && rs > 0.05)
    && !(rso > 0.0 && (rs - rso) / rso > 0.05)
  }

  /** The band without the division: at most 0.05 when R_so is zero, at
      most 1.05 R_so when it is positive, and no bound when it is negative. */
  lemma HourlyBandAsBound(rs: real, rso: real)
    ensures WithinHourlyBand(rs, rso) <==> (rso == 0.0 ==> rs <= 0.05) && (rso > 0.0 ==> rs <= 1.05 * rso)
  {
    if rso > 0.0 {
      var q := (rs - rso) / rso;
      assert q * rso == rs - rso;
      if q > 0.05 {
        assert q * rso > 0.05 * rso;
      } else {
        assert q * rso <= 0.05 * rso;
      }
    }
  }

  /** `HourEntry.solar_radiation`: the logged value only, refused when it is
      missing or, with the check on, outside the tolerance band. A logged
      zero is a value here (`is None` test). */
  function HourlySolarRadiation(env: Env, e: Entry): (r: Result<real>)
    ensures r.Ok? <==>
      && e.radiation.Some?
      && (env.checks.radiationRange ==>
            var rso := ClearSkyRadiation(env, e);
            (rso == 0.0 ==> e.radiation.value <= 0.05) && (rso > 0.0 ==> e.radiation.value <= 1.05 * rso))
    ensures r.Ok? ==> r.value == e.radiation.value
  {
    if e.radiation.None? then Err
    else
      var rs := e.radiation.value;
      var rso := ClearSkyRadiation(env, e);
      HourlyBandAsBound(rs, rso);
      if env.checks.radiationRange && rso == 0.0 && rs > 0.05 then Err
      else if env.checks.radiationRange && rso > 0.0 && (rs - rso) / rso > 0.05 then Err
      else Ok(rs)
  }

  /** In an hour outside the daylight window R_a and R_so are zero, so with
      the check on only a reading of at most 0.05 is accepted. */
  lemma NightHourAcceptsOnlyNearZero(env: Env, e: Entry)
    requires e.resolution == Hourly && e.radiation.Some? && env.checks.radiationRange
    requires env.astro.solarTimeAngle > env.astro.sunsetHourAngle || env.astro.solarTimeAngle < -env.astro.sunsetHourAngle
    ensures ClearSkyRadiation(env, e) == 0.0
    ensures HourlySolarRadiation(env, e).Ok? <==> e.radiation.value <= 0.05
  {
  }

  /** `solar_radiation` of either subclass. */
  function SolarRadiation(env: Env, e: Entry): Result<real>
  {
    match e.resolution
    case Daily => DailySolarRadiation(env, e)
    case Hourly => HourlySolarRadiation(env, e)
  }

  // ----- longwave radiation -----

  /** The cloud fraction of `HourEntry.R_l_incoming`: 0.5 when R_so is zero,
      else 1 - Rs/R_so clamped to [0, 1]; dividing a missing reading raises. */
  function CloudFraction(rs: Option<real>, rso: real): (r: Result<real>)
    ensures rso == 0.0 ==> r == Ok(0.5)
    ensures rso != 0.0 ==> (r.Ok? <==> rs.Some?)
    ensures r.Ok? ==> 0.0 <= r.value <= 1.0
    // under a positive ceiling the clamp never acts on a reading in [0, R_so]
    ensures rso > 0.0 && rs.Some? && 0.0 <= rs.value <= rso ==> r.Ok? && r.value * rso == rso - rs.value
    // a reading at or above the ceiling is a clear sky
    ensures rso > 0.0 && rs.Some? && rs.value >= rso ==> r == Ok(0.0)
  {
    if rso == 0.0 then Ok(0.5)
    else if rs.None? then Err
    else
      var f := 1.0 - rs.value / rso;
      if f < 0.0 then Ok(0.0)
      else if f > 1.0 then Ok(1.0)
      else Ok(f)
  }

  /** `R_l_outgoing`: emission of the soil, hourly Stefan-Boltzmann. */
  function LongwaveOutgoing(tempSoil: real): (r: real)
    ensures r >= 0.0
  {
    StefanBoltzmann / 24.0 * Pow4(tempSoil + Kelvin)
  }

  /** `R_l_incoming`: clear-sky emissivity raised by the cloud fraction. */
  function LongwaveIncoming(env: Env, e: Entry): (r: Result<real>)
    ensures r.Ok? <==> CloudFraction(e.radiation, ClearSkyRadiation(env, e)).Ok? && Tmean(e).Some?
  {
    var f :- CloudFraction(e.radiation, ClearSkyRadiation(env, e));
    var t :- Require(Tmean(e));
    var emissivity := env.formulas.clearSkyEmissivity(t) * (1.0 + 0.26 * f);
    Ok(emissivity * (StefanBoltzmann / 24.0) * Pow4(t + Kelvin))
  }

  /** `HourEntry.R_nl`: needs the soil temperature. */
  function HourlyNetLongwave(env: Env, e: Entry): (r: Result<real>)
    ensures r.Ok? <==> e.tempSoil.Some? && LongwaveIncoming(env, e).Ok?
  {
    if e.tempSoil.None? then Err
    else
      var incoming :- LongwaveIncoming(env, e);
      Ok(LongwaveOutgoing(e.tempSoil.value) - incoming)
  }

  /** `TimeEntry.R_nl`, Eq. 39: needs both extremes (truthy), an actual
      vapour pressure that is not negative (math.sqrt), the solar radiation
      and a non-zero R_so (the ratio Rs/R_so). */
  function DailyNetLongwave(env: Env, e: Entry): (r: Result<real>)
    ensures r.Ok? <==>
      && Truthy(e.tempMax) && Truthy(e.tempMin)
      && ActualVapourPressure(env, e).Some? && ActualVapourPressure(env, e).value >= 0.0
      && DailySolarRadiation(env, e).Ok?
      && ClearSkyRadiation(env, e) != 0.0
  {
    if !(Truthy(e.tempMax) && Truthy(e.tempMin)) then Err
    else
      var ea :- Require(ActualVapourPressure(env, e));
      var rs :- DailySolarRadiation(env, e);
      var rso := ClearSkyRadiation(env, e);
      if ea < 0.0 || rso == 0.0 then Err
      else
        var tk := (Pow4(e.tempMax.value + Kelvin) + Pow4(e.tempMin.value + Kelvin)) / 2.0;
        Ok(StefanBoltzmann * tk * (0.34 - 0.14 * env.formulas.sqrt(ea)) * (1.35 * (rs / rso) - 0.35))
  }

  function NetLongwave(env: Env, e: Entry): Result<real>
  {
    match e.resolution
    case Daily => DailyNetLongwave(env, e)
    case Hourly => HourlyNetLongwave(env, e)
  }

  // ----- net radiation and soil heat flux -----

  /** `R_ns`, Eq. 38, with the reference crop's albedo. */
  function NetShortwave(env: Env, e: Entry): (r: Result<real>)
    ensures r.Ok? <==> SolarRadiation(env, e).Ok?
  {
    var rs :- SolarRadiation(env, e);
    Ok((1.0 - env.station.refCrop.albedo) * rs)
  }

  /** `net_radiation`, Eq. 40: a failure of either part propagates. */
  function NetRadiation(env: Env, e: Entry): (r: Result<real>)
    ensures r.Ok? <==> SolarRadiation(env, e).Ok? && NetLongwave(env, e).Ok?
  {
    var ns :- NetShortwave(env, e);
    var nl :- NetLongwave(env, e);
    Ok(ns - nl)
  }

  /** `soil_heat_flux`: zero for a day; for an hour half of R_n at night
      (logged radiation below 0.05) and a tenth by day. Comparing a missing
      reading raises. */
  function SoilHeatFlux(env: Env, e: Entry): (r: Result<real>)
    ensures e.resolution == Daily ==> r == Ok(0.0)
    ensures e.resolution == Hourly ==> (r.Ok? <==> e.radiation.Some? && NetRadiation(env, e).Ok?)
    ensures e.resolution == Hourly && r.Ok? ==>
      r.value == (if e.radiation.value < 0.05 then 0.5 else 0.1) * NetRadiation(env, e).value
  {
    match e.resolution
    case Daily => Ok(0.0)
    case Hourly =>
      if e.radiation.None? then Err
      else
        var rn :- NetRadiation(env, e);
        if e.radiation.value < 0.05 then Ok(0.5 * rn) else Ok(0.1 * rn)
  }

  /** Soil heat flux follows net radiation: it has the same sign and is at
      most half of it in magnitude, the night-time share. */
  lemma SoilHeatFluxFollowsNetRadiation(env: Env, e: Entry)
    requires e.resolution == Hourly && SoilHeatFlux(env, e).Ok?
    ensures var g, rn := SoilHeatFlux(env, e).value, NetRadiation(env, e).value;
      && (g > 0.0 <==> rn > 0.0) && (g < 0.0 <==> rn < 0.0)
      && (rn >= 0.0 ==> 0.0 <= g <= rn / 2.0)
      && (rn <= 0.0 ==> rn / 2.0 <= g <= 0.0)
  {
    var rn := NetRadiation(env, e).value;
    var k := if e.radiation.value < 0.05 then 0.5 else 0.1;
    assert SoilHeatFlux(env, e).value == k * rn;
    assert 0.0 < k <= 0.5;
  }

  /** `air_conductance_coefficient`: 900 per day, 37 per hour. */
  function AirConductance(e: Entry): (r: real)
    ensures e.resolution == Daily ==> r == 900.0
    ensures e.resolution == Hourly ==> r == 37.0
  {
    match e.resolution
    case Daily => 900.0
    case Hourly => 37.0
  }
}

=== FILE: station.dfy ===
/** The weather station, its reference crop and the entries it records
    (eto.py, classes `Station`, `Crop` and the fields of `TimeEntry`). */
module Stations {
  import opened Optional
  import opened Climates

  /** A Python number as the constructor's `type(x) is float` and
      `type(x) is int` tests see it. */
  datatype Num = Int(i: int) | Float(f: real)

  /** The grass reference surface (`Crop()`): aerodynamic resistance s/m,
      albedo, height m. */
  datatype Crop = Crop(resistanceA: real, albedo: real, height: real)

  function DefaultCrop(): Crop
  {
    Crop(208.0, 0.23, 0.12)
  }

  /** Which subclass of `TimeEntry` an entry is. */
  datatype Resolution = Daily | Hourly

  /** One day's or one hour's observations. Every field is optional; the
      factories fill a few of them and a caller may set the rest. */
  datatype Entry = Entry(
    resolution: Resolution,
    dayNumber: int,
    climate: Option<Climate>,        // the profile object the station held when the entry was made, as it is now
    tempMin: Option<real>,
    tempMax: Option<real>,
    tempMean: Option<real>,
    tempDew: Option<real>,
    tempDry: Option<real>,
    tempWet: Option<real>,
    tempSoil: Option<real>,
    humidityMean: Option<real>,
    humidityMin: Option<real>,
    humidityMax: Option<real>,
    windSpeed: Option<real>,
    radiation: Option<real>,         // `radiation_s`, MJ m^-2 per day or hour
    sunshineHours: Option<real>,
    vapourPressure: Option<real>,    // logged actual vapour pressure, kPa
    loggedPressure: Option<real>)    // logged atmospheric pressure, kPa

  /** None of the eight observations the entry factories never fill is set. */
  predicate NoUnloggedObservations(e: Entry)
  {
    && e.tempDew.None? && e.tempDry.None? && e.tempWet.None? && e.tempSoil.None?
    && e.humidityMin.None? && e.humidityMax.None? && e.vapourPressure.None? && e.loggedPressure.None?
  }

  /** None of the fifteen observations of an entry is set. */
  predicate NoObservations(e: Entry)
  {
    && NoUnloggedObservations(e)
    && e.tempMin.None? && e.tempMax.None? && e.tempMean.None? && e.humidityMean.None?
    && e.windSpeed.None? && e.radiation.None? && e.sunshineHours.None?
  }

  /** `TimeEntry.__init__`: an entry with no observations. */
  function EmptyEntry(resolution: Resolution, dayNumber: int, climate: Option<Climate>): (e: Entry)
    ensures e.resolution == resolution && e.dayNumber == dayNumber && e.climate == climate
    ensures NoObservations(e)
  {
    Entry(resolution, dayNumber, climate,
          None, None, None, None, None, None, None,
          None, None, None, None, None, None, None, None)
  }

  datatype Station = Station(
    latitude: real,            // degrees, south negative
    longitude: real,           // degrees west of Greenwich
    altitude: int,             // m
    anemometerHeight: real,    // m
    timezoneLongitude: real,   // degrees west of Greenwich
    days: map<int, Entry>,     // by day number
    hours: map<int, Entry>,    // by whole hours since the epoch
    climate: Option<Climate>,  // a caller may set it to None
    refCrop: Crop)

  /** The two module-level switches `CHECK_RADIATION_RANGE` and
      `CHECK_SUNSHINE_HOURS_RANGE`. */
  datatype Checks = Checks(radiationRange: bool, sunshineRange: bool)

  /** The timezone longitude every station ends up with. */
  const TimezoneLongitudeUsed: real := 345.0

  /** The arguments `Station(...)` accepts. */
  predicate ValidArguments(latitude: Num, longitude: Num, altitude: Num, timezoneLongitude: real)
  {
    && latitude.Float? && -90.0 <= latitude.f <= 90.0
    && longitude.Float? && 0.0 <= longitude.f <= 360.0
    && altitude.Int? && altitude.i >= 0
    && 0.0 <= timezoneLongitude <= 359.0
  }

  /** `Station(latitude, longitude, altitude, anemometer_height,
      timezone_longitude)`. */
  function NewStation(latitude: Num, longitude: Num, altitude: Num,
                      anemometerHeight: real, timezoneLongitude: real): (r: Result<Station>)
    ensures r.Ok? <==> ValidArguments(latitude, longitude, altitude, timezoneLongitude)
    ensures r.Ok? ==>
      && latitude == Float(r.value.latitude)
      && longitude == Float(r.value.longitude)
      && altitude == Int(r.value.altitude)
      && r.value.anemometerHeight == anemometerHeight
      // the argument is range-checked, then replaced
      && r.value.timezoneLongitude == TimezoneLongitudeUsed
      && r.value.days == map[] && r.value.hours == map[]
      && r.value.climate == Some(Default())
      && r.value.refCrop == DefaultCrop()
  {
    if !latitude.Float? then Err
    else if !longitude.Float? then Err
    else if latitude.f < -90.0 || latitude.f > 90.0 then Err
    else if longitude.f < 0.0 || longitude.f > 360.0 then Err
    else if !altitude.Int? then Err
    else if altitude.i < 0 then Err
    else if timezoneLongitude < 0.0 || timezoneLongitude > 359.0 then Err
    else
      Ok(Station(latitude.f, longitude.f, altitude.i, anemometerHeight, TimezoneLongitudeUsed,
                 map[], map[], Some(Default()), DefaultCrop()))
  }

  /** The timezone longitude passed in only decides whether construction
      succeeds: any two accepted values build the same station. */
  lemma TimezoneArgumentIgnored(latitude: Num, longitude: Num, altitude: Num,
                                anemometerHeight: real, tz1: real, tz2: real)
    requires NewStation(latitude, longitude, altitude, anemometerHeight, tz1).Ok?
    requires 0.0 <= tz2 <= 359.0
    ensures NewStation(latitude, longitude, altitude, anemometerHeight, tz2)
         == NewStation(latitude, longitude, altitude, anemometerHeight, tz1)
  {
  }

  /** A longitude written as an integer, as in `Station(41.42, 109)`, is
      refused whatever the other arguments are. */
  lemma IntegerLongitudeRefused(latitude: Num, longitude: int, altitude: Num,
                                anemometerHeight: real, timezoneLongitude: real)
    ensures NewStation(latitude, Int(longitude), altitude, anemometerHeight, timezoneLongitude).Err?
  {
  }
}
